=== FILE: README.md ===
# Foodgram recipe store — a Dafny model

This project models the core of the Foodgram recipe service (a Django REST
backend). It covers the database records of `backend/recipes/models.py` and the
invariants their validators, unique constraints and cascading foreign keys keep.
It also covers the ingredient editor of `RecipeCreateSerializer` (validators,
`create`, `update`, `get_ingredients_list`) and three actions of `RecipeViewSet`:

- the shopping-list download;
- adding a recipe to and removing it from the shopping cart;
- the 404-guarded delete of a cart or favourite row.

Files:

- `rows.dfy` (module `Rows`) has generic helpers over row tables. They are an
  order-preserving `Filter` (a queryset `.filter(...)`) and `DistinctKeys`, the
  meaning of a unique constraint.
- `models.dfy` (module `Models`) has one datatype per record and `Db`, the
  contents of all tables. `Db.Valid` states the schema invariants:
  - `cooking_time >= 1` and `amount >= 1`;
  - a recipe's tags exist, and quantity rows and membership rows point at existing rows;
  - `unique_ingredient_amount`, `unique_shopping_cart` and `unique_user_recipe`;
  - tag name, colour and slug are each unique.

  It also has the cascade deletes as functions and `Store`, the database as a
  class with one field per table.
- `serializers.dfy` (module `Serializers`) has:
  - the validators;
  - the row editor: delete every row of the recipe, then update or create one
    row per submitted entry, adding the amounts of a repeated ingredient id;
  - `create` / `update` on the store, and the validate-then-save request flows.
- `views.py` is modelled in `views.dfy` (module `Views`):
  - the group-by-sum behind `download_shopping_cart`, as a pure function;
  - its text rendering, as a loop;
  - `shopping_cart`, `delete_method_for_actions` and `delete_favorite` on the store.

Notes on the code:

- `views.py` imports `RecipeSerializer`, `RecipeReadSerializer` and `FavoriteSerializer`, which `serializers.py` does not define. The model takes the write serializer of `RecipeViewSet` to be `RecipeCreateSerializer`, the one that defines `create`, `update` and the validators.
- `serializers.py` names its quantity model `IngredientAmount` (fields `ingred`,
  `recipe_id`), but `models.py` only defines `CountOfIngredient` (fields
  `ingredient`, `recipe`). The model uses the `models.py` row shape and runs the
  serializer's algorithm on it.
- The shopping list is grouped by ingredient name and measurement unit, as the
  query's `.values(...)` does. It is not grouped by ingredient id. The query fixes
  no order, so the model lists groups in the order their key first appears in the
  quantity table.
- `shopping_cart` answers a repeat add with status 201 and an `errors` body. A
  DELETE answers 204 even when the user had no such row.
- The scalar assignments of `update` reach the table only at the final `save()`.
  `tags.set` writes at once, and `get_ingredients_list` writes row by row. So an
  unknown ingredient id leaves the new tags and part of the new rows in the table,
  but not the new name, text, cooking time or image. Likewise, `create` leaves the
  recipe row without tags.
- `validate_ingredients` reads the raw request list (`initial_data`). It hands back
  the validated value unchanged.

## Model

| member | source | states |
|---|---|---|
| Models.Db.Valid | backend/recipes/models.py:29-159 | the schema invariant every database state keeps: cooking time and amounts at least 1, a recipe's tags exist, quantity, cart and favourite rows point at existing rows, the three unique constraints, and unique tag name, colour and slug |
| Rows.Filter | backend/recipes/views.py:80-82 | a queryset filter keeps, in order, exactly the rows that satisfy the condition, and never more rows than it started with |
| Models.DeleteRecipe | backend/recipes/models.py:95-149 | deleting a recipe removes exactly that key from the recipes, and from the quantity, cart and favourite tables exactly the rows that refer to it; nothing is added and the other tables stay |
| Models.DeleteRecipeKeepsValid | backend/recipes/models.py:95-149 | the recipe cascade keeps every schema invariant, and every row that did not refer to the recipe survives |
| Models.DeleteIngredient | backend/recipes/models.py:81-84 | deleting an ingredient removes exactly that key from the ingredients and exactly the quantity rows that refer to it; nothing is added and the other tables stay |
| Models.DeleteIngredientKeepsValid | backend/recipes/models.py:81-84 | the ingredient cascade keeps every schema invariant, and every other quantity row survives |
| Models.PutRecipeKeepsValid | backend/recipes/models.py:51-63 | writing a recipe row whose cooking time is at least 1 and whose tags exist, new or over an old one, keeps every invariant |
| Models.Store.InsertRecipe | backend/recipes/serializers.py:95 | the new recipe row gets the next, previously unused primary key, and nothing else changes |
| Models.Store.SaveRecipe | backend/recipes/serializers.py:119 | saving a recipe replaces that one row and keeps the invariants |
| Models.Store.constructor | backend/recipes/models.py:30-33 | a database that holds only ingredients and tags with unique name, colour and slug satisfies every invariant |
| Models.Store.DeleteRecipeRow | backend/recipes/models.py:95-149 | the in-place recipe delete leaves the tables equal to the cascade function and keeps the invariants |
| Models.Store.DeleteIngredientRow | backend/recipes/models.py:81-84 | the in-place ingredient delete leaves the tables equal to the cascade function and keeps the invariants |
| Serializers.ValidationMessages | backend/recipes/serializers.py:77-90 | the field errors of a request, in field order: the ingredient message for a present list, the cooking-time message for a present time, the empty-list message for a present tag list; its meaning is stated by ValidationMessagesEmpty |
| Serializers.ValidateTags | backend/recipes/models.py:51-54 | the `tags` field derived from a many-to-many relation that is not blank passes exactly a non-empty list, returns it unchanged, and otherwise fails with the empty-list message |
| Serializers.FirstNonPositive | backend/recipes/serializers.py:81-83 | the validator's loop stops at the first entry whose amount is not positive; every earlier entry is positive |
| Serializers.ValidateIngredients | backend/recipes/serializers.py:77-84 | passes exactly when the submitted list is present, non-empty and has only positive amounts, and then returns its input unchanged; otherwise fails with the missing-ingredient or the amount message |
| Serializers.ValidateCookingTime | backend/recipes/serializers.py:86-90 | passes exactly when the time is at least 1, returns it unchanged, and otherwise fails with the cooking-time message |
| Serializers.ValidationMessagesEmpty | backend/recipes/serializers.py:77-90 | a request has no field error if and only if its present fields meet the model's invariants (non-empty ingredient list, positive amounts, cooking time of at least 1, non-empty tag list) |
| Serializers.UpdateOrCreate | backend/recipes/serializers.py:134-140 | one loop step on the quantity table: the existing row with the key gets the sum, or a new row is appended; proved in UpdateOrCreateKeys, UpdateOrCreateAmount and UpdateOrCreatePositive |
| Serializers.MergeAll | backend/recipes/serializers.py:130-141 | the update-or-create loop over the entries, in order; proved in the MergeAll lemmas below |
| Serializers.ReplacedCounts | backend/recipes/serializers.py:122-142 | what get_ingredients_list leaves: the recipe's rows deleted, then the loop up to the first unknown ingredient; proved in the ReplacedCounts lemmas below |
| Serializers.IndexOfKey | backend/recipes/serializers.py:134-136 | the `exists()` test: finds the one row with key (ingredient, recipe), or reports that there is none |
| Serializers.WrittenRow | backend/recipes/serializers.py:137-140 | update_or_create writes a row with the step's (ingredient, recipe) key |
| Serializers.UpdateOrCreateKeys | backend/recipes/serializers.py:138-140 | one update-or-create step keeps the unique constraint, writes only the row with its key, and leaves other recipes' rows as they were |
| Serializers.UpdateOrCreateAmount | backend/recipes/serializers.py:134-140 | an existing row's amount grows by the submitted amount (`F('amount')`); a missing row is created with that amount; rows with other keys stay |
| Serializers.UpdateOrCreatePositive | backend/recipes/serializers.py:137-140 | positive amounts stay positive through a step |
| Serializers.MergeAllKeys | backend/recipes/serializers.py:130-141 | the loop keeps the (ingredient, recipe) keys distinct and leaves every other recipe's rows unchanged |
| Serializers.MergeAllShape | backend/recipes/serializers.py:130-141 | the loop writes rows of the recipe only for submitted ids |
| Serializers.MergeAllPositive | backend/recipes/serializers.py:130-141 | with positive submitted amounts, every amount in the table stays positive |
| Serializers.MergeAllSumAt | backend/recipes/serializers.py:130-140 | starting with no row of the recipe, a submitted id ends with a row carrying the sum of that id's amounts |
| Serializers.MergeAllSums | backend/recipes/serializers.py:130-140 | the same for every submitted id at once |
| Serializers.FirstMissing | backend/recipes/serializers.py:133 | the index of the first entry whose ingredient does not exist; all entries before it exist |
| Serializers.FirstMissingAt | backend/recipes/serializers.py:130-133 | the loop stops at an entry exactly when it is the first one whose ingredient does not exist |
| Serializers.MissingIngredientFails | backend/recipes/serializers.py:133 | the editor stops early if and only if some submitted id names no ingredient |
| Serializers.ReplacedCountsAllKnown | backend/recipes/serializers.py:125-140 | when all ids exist, the result is the merge loop run on the table with the recipe's rows deleted |
| Serializers.ReplacedCountsKeys | backend/recipes/serializers.py:125-126 | the editor keeps the unique constraint and leaves other recipes' rows unchanged, for any input |
| Serializers.ReplacedCountsSums | backend/recipes/serializers.py:125-140 | when all ids exist, the recipe has one row per distinct submitted id holding that id's summed amount, and no row for any other id |
| Serializers.ReplacedCountsValid | backend/recipes/serializers.py:122-142 | the quantity table keeps positive amounts, existing foreign keys and unique keys, also when the editor stops at a missing id |
| Serializers.RowsKept | backend/recipes/serializers.py:125-129 | the deletion loop, one row at a time, keeps exactly the rows of other recipes, in their order |
| Serializers.DeleteRowsOf | backend/recipes/serializers.py:125-129 | the deletion loop removes exactly the recipe's rows and keeps the rest in order |
| Serializers.MergeEntries | backend/recipes/serializers.py:130-142 | the update-or-create loop leaves the table equal to the merge of the entries up to the first missing ingredient, and fails with DoesNotExist exactly when there is one; on success it returns one written row per entry, with that entry's key |
| Serializers.GetIngredientsList | backend/recipes/serializers.py:122-142 | the table becomes the replaced-rows function of the old table; the call fails with DoesNotExist exactly when some id is unknown; otherwise it returns one written row per entry with that entry's key |
| Serializers.ApplyScalars | backend/recipes/serializers.py:104-108 | the four scalar assignments on the in-memory instance; proved in ApplyScalarsFields |
| Serializers.UpdatedTags | backend/recipes/serializers.py:110-112 | the tag set after `tags.set` runs only for a non-empty list; proved in UpdatedTagsSpec |
| Serializers.ApplyScalarsFields | backend/recipes/serializers.py:104-108 | a scalar field absent from the request keeps its old value, a present one takes exactly the submitted value (name, text, cooking time and image alike), and author and tags are untouched |
| Serializers.UpdatedTagsSpec | backend/recipes/serializers.py:110-112 | tags become exactly the submitted ids when the list is non-empty, and otherwise stay as they were |
| Serializers.CreateOutcome | backend/recipes/serializers.py:92-101 | the tables after create(): next id used, quantity rows replaced, recipe row with its tags only when every ingredient exists and without tags otherwise, every other table unchanged |
| Serializers.UpdateOutcome | backend/recipes/serializers.py:103-120 | the tables after update(): tags and rows replaced only by non-empty lists, scalars stored only on success, every other table unchanged |
| Serializers.Create | backend/recipes/serializers.py:92-101 | the recipe gets the next id; its rows are the replaced-rows result; tags are set only when every ingredient exists; the invariants hold afterwards |
| Serializers.Update | backend/recipes/serializers.py:103-120 | tags and rows are replaced only by non-empty lists; on success the record has the merged scalars; on an unknown ingredient the new tags stay and the scalars do not; the invariants hold |
| Serializers.PostRecipe | backend/recipes/serializers.py:77-101 | a request with a field error, an empty tag list among them, writes nothing and reports the messages; a valid one has exactly create()'s outcome (CreateOutcome): next id, replaced quantity rows, success exactly when every ingredient exists, tags only on success |
| Serializers.PatchRecipe | backend/recipes/serializers.py:77-120 | a missing recipe is NotFound and a request with a field error, a present but empty tag list among them, writes nothing; otherwise it has exactly update()'s outcome (UpdateOutcome): replaced rows and tags, success exactly when every ingredient exists, scalars stored only on success |
| Views.CartItems | backend/recipes/views.py:102-103 | the quantity rows of the recipes in the user's cart, joined with their ingredient's name and unit |
| Views.GroupSum | backend/recipes/views.py:104-105 | the `.values(...).annotate(Sum)` group-by; proved in the GroupSum lemmas below |
| Views.Aggregate | backend/recipes/views.py:102-105 | the list the download renders; proved in AggregateSpec |
| Views.GroupSumKeys | backend/recipes/views.py:102-105 | grouping gives exactly one line per distinct (name, unit) pair of the items |
| Views.GroupSumCount | backend/recipes/views.py:102-105 | the list has as many lines as there are distinct (name, unit) pairs |
| Views.GroupSumAt | backend/recipes/views.py:105 | for each key present, the list holds a line with the sum of that key's amounts |
| Views.GroupSumTotals | backend/recipes/views.py:102-105 | every line's total is the sum of the amounts of the items with its name and unit |
| Views.GroupSumConserves | backend/recipes/views.py:105 | the totals add up to the sum of all amounts |
| Views.AggregateSpec | backend/recipes/views.py:102-105 | the downloaded list has one line per distinct (name, unit) among the quantity rows of recipes in the user's cart, each with the sum of their amounts |
| Views.AggregateEmptyCart | backend/recipes/views.py:102-105 | an empty cart gives an empty list, not an error |
| Views.AggregateIgnoresOtherRecipes | backend/recipes/views.py:102-103 | a quantity row of a recipe not in the user's cart changes nothing, wherever it sits |
| Views.GroupSumExample | backend/recipes/views.py:102-105 | flour 200 g and sugar 50 g plus flour 100 g and egg 2 pc give flour 300 g, sugar 50 g, egg 2 pc |
| Views.FormatLine | backend/recipes/views.py:107-112 | one line: number, name, " - ", total, unit, line break; proved in FormatLineOneNewline |
| Views.Render | backend/recipes/views.py:106-112 | the header followed by the numbered lines; proved in RenderLineCount and by RenderShoppingList |
| Views.NatStr | backend/recipes/views.py:109 | the number is written in decimal digits, with a leading zero only for 0 |
| Views.NatStrRoundTrip | backend/recipes/views.py:109 | the decimal text of a line number reads back as that number |
| Views.IntStrRoundTrip | backend/recipes/views.py:111 | the decimal text of a total, sign included, reads back as that total |
| Views.BodyCons | backend/recipes/views.py:107 | lines are numbered consecutively: the first gets the start number and the rest follow from the next one |
| Views.FormatLineOneNewline | backend/recipes/views.py:108-112 | a formatted line ends in exactly one line break, given that names and units have none |
| Views.RenderLineCount | backend/recipes/views.py:106-112 | the file has the header line plus exactly one line per group |
| Views.RenderShoppingList | backend/recipes/views.py:106-112 | the loop produces the header followed by line k, "k name - total unit", for every k from 1 |
| Views.DownloadShoppingCart | backend/recipes/views.py:100-115 | on a store whose cart rows are unique, so that the join counts each cart recipe once, the attachment text is the rendering of the user's aggregated list |
| Views.GetOrCreate | backend/recipes/views.py:66-68 | get_or_create on the cart table; proved in GetOrCreateSpec |
| Views.DeleteRows | backend/recipes/views.py:80-82 | the filtered delete; proved in DeleteRowsLength and DeleteRowsSpec |
| Views.GetOrCreateSpec | backend/recipes/views.py:66-68 | get_or_create creates exactly when the row is absent, adds only that row, keeps the table valid, and a second call creates nothing |
| Views.DeleteRowsLength | backend/recipes/views.py:80-82 | under the unique constraint the delete removes one row if present and none otherwise |
| Views.DeleteRowsSpec | backend/recipes/views.py:80-82 | the delete removes that row and nothing else, keeps the table valid, and leaves the table unchanged when the row is absent |
| Views.DeleteUndoesGetOrCreate | backend/recipes/views.py:65-83 | deleting after adding returns a table that lacked the row to what it was |
| Views.ShoppingCart | backend/recipes/views.py:61-84 | 404 with nothing changed for a missing recipe; GET adds the row only when absent and answers 201 with the row (the evidently intended answer; see Left out) or with the already-in-cart error; DELETE removes the row and answers 204; any other method is 400; other tables are untouched |
| Views.DeleteMethodForActions | backend/recipes/views.py:86-92 | 404 with nothing changed when the recipe is missing (checked first) or the user has no such row; otherwise exactly that row of the chosen table is deleted, with 204 |
| Views.DeleteFavorite | backend/recipes/views.py:94-98 | the answer is 204 exactly when the recipe and the favourite row exist, and then only that favourite row is gone; otherwise 404 with nothing changed |

## Left out

- HTTP transport, routing, authentication, permissions (`IsAuthorOrAdminOrReadOnly`, `IsAuthenticated`) and pagination. Responses keep only their status and body kind. The `Content-Disposition` header and content type of the download are not modelled.
- `shopping_cart` carries no `@action` decorator in `views.py`, so the router may not expose it. It is modelled as the code of the method.
- `Base64ImageField` and image storage: the image is an opaque string.
- `post_method_for_action`, the `favorite` POST action and `FavoriteSerializer`: the serializer's validation is not part of this model. Also left out: `RecipeListSerializer`, `IngredientListSerializer`, `IngredientSerializer`, `TagSerializer` and the other read-only viewsets, which only present data.
- The `ShoppingCartSerializer` body is reduced to the (user, recipe) row it names.
- Views.ShoppingCart: read as written, the answer to a first add fails. `ShoppingCartSerializer` (serializers.py:152-159) declares `name`, `image` and `cooking_time` but lists only `user_id` and `recipe_id` in `Meta.fields`, and a `ModelSerializer` refuses a declared field missing from `fields` when it builds its fields; its sources also read attributes of an integer id. So `to_representation` at views.py:69-72 raises and the client gets a server error, after `get_or_create` has already stored the row. The model keeps the stored row and gives the 201 with the row that the code evidently intends.
- Parsing of request values: `int(ingredient['amount'])` and a malformed entry, which raise before validation ends, are not modelled. Amounts and ids are integers.
- The DRF field checks that `is_valid` runs before the custom validators: required fields, field types, and resolving tag ids to existing tags. The one such check that is modelled is the refusal of an empty tag list (`Serializers.ValidateTags`); its message is the framework's untranslated default text, as the active language is not part of this model. A `NewRecipe` carries already-resolved tag ids, which is why `PostRecipe`, `PatchRecipe`, `Create` and `Update` require the submitted tags to exist.
- `recipe.ingredients_amount.set(...)` in `create` and `update`: it sets the relation to the rows `get_ingredients_list` has just written, so it changes nothing and is not modelled.
- Transactions and concurrent requests: each operation runs alone and nothing is rolled back. The partial writes described above are modelled as such.
- The author of a new recipe is a parameter of `Create`. `RecipeViewSet` defines no `perform_create` that would pass the requesting user, so where the author comes from is not part of this model.
- `update` tests the validated nested list but hands the raw request list to `get_ingredients_list`. The model takes both to be the same entries.
- Users, `Follow`, and the cascade from deleting a user. `backend/users/models.py` is not part of this model.
- `filters.py`, `admin.py`, `urls.py` and the migrations: they hold no behaviour beyond the records modelled here.
- Views.GroupSum: the order of the shopping-list lines is fixed to first-seen order, where the query leaves it to the database.
- Serializers.UpdatedTagsSpec: tags are a set of ids, so duplicate ids in a submitted list collapse, as a many-to-many relation does.
- Serializers.ValidationMessages: a cooking time below 1 is reported with the `validate_cooking_time` message. `cooking_time` is not declared on the serializer, so its field is derived from the model, and the `MinValueValidator(1)` of models.py:57-63 becomes the field's own minimum. That check runs first and answers with its own text, so the real 400 carries a different message. Which requests are rejected is the same. The same holds for the `ValidationError(msgs)` answers of `Serializers.PostRecipe` and `Serializers.PatchRecipe`.
- Serializers.UpdateOrCreate: amounts and cooking times are unbounded integers. `PositiveIntegerField` columns are bounded by the database (models.py:57, 86), so the `F('amount')` sum of serializers.py:137 or a very large submitted amount can fail in the database; the model does not capture that failure.

=== FILE: models.dfy ===
/** The records of backend/recipes/models.py and the invariants that their
    validators, unique constraints and CASCADE foreign keys keep in the
    database. The database itself is the class `Store`: one field per table. */
module Models {
  import opened Rows

  type UserId = int
  type IngredientId = int
  type RecipeId = int
  type TagId = int

  /** MinValueValidator(1) on Recipe.cooking_time and on CountOfIngredient.amount. */
  const COOKING_TIME_MIN: int := 1
  const INGREDIENT_MIN_AMOUNT: int := 1

  datatype Ingredient = Ingredient(name: string, measurementUnit: string)

  datatype Tag = Tag(name: string, color: string, slug: string)

  /** The image is an opaque reference (the stored file name). */
  datatype Recipe = Recipe(name: string, text: string, image: string, cookingTime: int,
                           author: UserId, tags: set<TagId>)

  /** One quantity row: how much of an ingredient one recipe needs. */
  datatype CountOfIngredient = CountOfIngredient(ingredient: IngredientId, recipe: RecipeId, amount: int)

  /** A row of the ShoppingCart table or of the Favorite table: both are (user, recipe). */
  datatype Membership = Membership(user: UserId, recipe: RecipeId)

  /** The key of the `unique_ingredient_amount` constraint. */
  function CountKey(c: CountOfIngredient): (IngredientId, RecipeId)
  {
    (c.ingredient, c.recipe)
  }

  /** The key of `unique_shopping_cart` and `unique_user_recipe`: the whole row. */
  function MembershipKey(m: Membership): Membership
  {
    m
  }

  function NotOfRecipe(r: RecipeId): CountOfIngredient -> bool
  {
    (c: CountOfIngredient) => c.recipe != r
  }

  function NotOfIngredient(i: IngredientId): CountOfIngredient -> bool
  {
    (c: CountOfIngredient) => c.ingredient != i
  }

  function MembershipNotOfRecipe(r: RecipeId): Membership -> bool
  {
    (m: Membership) => m.recipe != r
  }

  /** Name, colour and slug are each unique across tags. */
  ghost predicate TagsUnique(tags: map<TagId, Tag>)
  {
    forall a, b :: a in tags && b in tags && a != b ==>
      tags[a].name != tags[b].name && tags[a].color != tags[b].color && tags[a].slug != tags[b].slug
  }

  ghost predicate CountsValid(counts: seq<CountOfIngredient>, ingredients: set<IngredientId>, recipes: set<RecipeId>)
  {
    && (forall c :: c in counts ==> c.amount >= INGREDIENT_MIN_AMOUNT)
    && (forall c :: c in counts ==> c.ingredient in ingredients && c.recipe in recipes)
    && DistinctKeys(counts, CountKey)
  }

  ghost predicate MembershipValid(rows: seq<Membership>, recipes: set<RecipeId>)
  {
    && (forall m :: m in rows ==> m.recipe in recipes)
    && DistinctKeys(rows, MembershipKey)
  }

  /** The contents of every table at one moment. */
  datatype Db = Db(ingredients: map<IngredientId, Ingredient>,
                   tags: map<TagId, Tag>,
                   recipes: map<RecipeId, Recipe>,
                   counts: seq<CountOfIngredient>,
                   shoppingCart: seq<Membership>,
                   favorites: seq<Membership>)
  {
    /** What the schema of models.py guarantees of every database state. */
    ghost predicate Valid()
    {
      && (forall r :: r in recipes ==> recipes[r].cookingTime >= COOKING_TIME_MIN)
      && (forall r :: r in recipes ==> recipes[r].tags <= tags.Keys)
      && CountsValid(counts, ingredients.Keys, recipes.Keys)
      && MembershipValid(shoppingCart, recipes.Keys)
      && MembershipValid(favorites, recipes.Keys)
      && TagsUnique(tags)
    }
  }

  /** Deleting a recipe: on_delete=CASCADE removes its quantity, cart and favourite rows. */
  function DeleteRecipe(db: Db, r: RecipeId): (d: Db)
    ensures d.recipes == db.recipes - {r}
    ensures d.ingredients == db.ingredients && d.tags == db.tags
    ensures forall c :: c in d.counts <==> c in db.counts && c.recipe != r
    ensures forall m :: m in d.shoppingCart <==> m in db.shoppingCart && m.recipe != r
    ensures forall m :: m in d.favorites <==> m in db.favorites && m.recipe != r
  {
    db.(recipes := db.recipes - {r},
        counts := Filter(db.counts, NotOfRecipe(r)),
        shoppingCart := Filter(db.shoppingCart, MembershipNotOfRecipe(r)),
        favorites := Filter(db.favorites, MembershipNotOfRecipe(r)))
  }

  /** Deleting an ingredient: on_delete=CASCADE removes its quantity rows. */
  function DeleteIngredient(db: Db, i: IngredientId): (d: Db)
    ensures d.ingredients == db.ingredients - {i}
    ensures d.recipes == db.recipes && d.tags == db.tags
    ensures d.shoppingCart == db.shoppingCart && d.favorites == db.favorites
    ensures forall c :: c in d.counts <==> c in db.counts && c.ingredient != i
  {
    db.(ingredients := db.ingredients - {i}, counts := Filter(db.counts, NotOfIngredient(i)))
  }

  /** Cascade keeps every invariant: no row is left pointing at the deleted recipe,
      and every row that did not point at it is still there. */
  lemma DeleteRecipeKeepsValid(db: Db, r: RecipeId)
    requires db.Valid()
    ensures DeleteRecipe(db, r).Valid()
    ensures forall c :: c in db.counts && c.recipe != r ==> c in DeleteRecipe(db, r).counts
    ensures forall m :: m in db.shoppingCart && m.recipe != r ==> m in DeleteRecipe(db, r).shoppingCart
    ensures forall m :: m in db.favorites && m.recipe != r ==> m in DeleteRecipe(db, r).favorites
  {
    FilterKeepsDistinct(db.counts, NotOfRecipe(r), CountKey);
    FilterKeepsDistinct(db.shoppingCart, MembershipNotOfRecipe(r), MembershipKey);
    FilterKeepsDistinct(db.favorites, MembershipNotOfRecipe(r), MembershipKey);
  }

  lemma DeleteIngredientKeepsValid(db: Db, i: IngredientId)
    requires db.Valid()
    ensures DeleteIngredient(db, i).Valid()
    ensures forall c :: c in db.counts && c.ingredient != i ==> c in DeleteIngredient(db, i).counts
  {
    FilterKeepsDistinct(db.counts, NotOfIngredient(i), CountKey);
  }

  /** Writing a recipe row with a valid cooking time and existing tags, new or over
      an existing one, keeps every invariant: rows only need the recipe's key to exist. */
  lemma PutRecipeKeepsValid(db: Db, id: RecipeId, rec: Recipe)
    requires db.Valid()
    requires rec.cookingTime >= COOKING_TIME_MIN
    requires rec.tags <= db.tags.Keys
    ensures db.(recipes := db.recipes[id := rec]).Valid()
  {
    var d := db.(recipes := db.recipes[id := rec]);
    assert db.recipes.Keys <= d.recipes.Keys;
  }

  /** The database: each table is a field that the operations of the serializers
      and views update in place. */
  class Store {
    var ingredients: map<IngredientId, Ingredient>
    var tags: map<TagId, Tag>
    var recipes: map<RecipeId, Recipe>
    var counts: seq<CountOfIngredient>
    var shoppingCart: seq<Membership>
    var favorites: seq<Membership>
    /** The primary-key sequence of the recipe table: the id the next new recipe gets. */
    var nextRecipeId: RecipeId

    function Snapshot(): (d: Db)
      reads this
      ensures d.recipes == recipes && d.counts == counts
    {
      Db(ingredients, tags, recipes, counts, shoppingCart, favorites)
    }

    ghost predicate Valid()
      reads this
    {
      && Snapshot().Valid()
      && forall r :: r in recipes ==> r < nextRecipeId
    }

    /** A database holding the reference data (ingredients and tags) and nothing else. */
    constructor (ingredients: map<IngredientId, Ingredient>, tags: map<TagId, Tag>)
      requires TagsUnique(tags)
      ensures Valid()
      ensures Snapshot() == Db(ingredients, tags, map[], [], [], [])
    {
      this.ingredients := ingredients;
      this.tags := tags;
      this.recipes := map[];
      this.counts := [];
      this.shoppingCart := [];
      this.favorites := [];
      this.nextRecipeId := 1;
    }

    /** `Recipe.objects.create(...)`: the row gets the next primary key. */
    method InsertRecipe(row: Recipe) returns (id: RecipeId)
      requires Valid()
      requires row.cookingTime >= COOKING_TIME_MIN
      requires row.tags <= tags.Keys
      modifies this
      ensures Valid()
      ensures id == old(nextRecipeId) && id !in old(recipes)
      ensures nextRecipeId == old(nextRecipeId) + 1
      ensures Snapshot() == old(Snapshot()).(recipes := old(recipes)[id := row])
    {
      id := nextRecipeId;
      PutRecipeKeepsValid(Snapshot(), id, row);
      recipes := recipes[id := row];
      nextRecipeId := id + 1;
    }

    /** `instance.save()` of an existing recipe, and `recipe.tags.set(...)`, which
        rewrites the recipe's tag links: the row of `id` becomes `row`. */
    method SaveRecipe(id: RecipeId, row: Recipe)
      requires Valid()
      requires id in recipes
      requires row.cookingTime >= COOKING_TIME_MIN
      requires row.tags <= tags.Keys
      modifies this
      ensures Valid()
      ensures nextRecipeId == old(nextRecipeId)
      ensures Snapshot() == old(Snapshot()).(recipes := old(recipes)[id := row])
    {
      PutRecipeKeepsValid(Snapshot(), id, row);
      recipes := recipes[id := row];
    }

    method DeleteRecipeRow(r: RecipeId)
      requires Valid()
      modifies this
      ensures Valid()
      ensures Snapshot() == DeleteRecipe(old(Snapshot()), r)
      ensures nextRecipeId == old(nextRecipeId)
    {
      DeleteRecipeKeepsValid(Snapshot(), r);
      recipes := recipes - {r};
      counts := Filter(counts, NotOfRecipe(r));
      shoppingCart := Filter(shoppingCart, MembershipNotOfRecipe(r));
      favorites := Filter(favorites, MembershipNotOfRecipe(r));
    }

    method DeleteIngredientRow(i: IngredientId)
      requires Valid()
      modifies this
      ensures Valid()
      ensures Snapshot() == DeleteIngredient(old(Snapshot()), i)
      ensures nextRecipeId == old(nextRecipeId)
    {
      DeleteIngredientKeepsValid(Snapshot(), i);
      ingredients := ingredients - {i};
      counts := Filter(counts, NotOfIngredient(i));
    }
  }
}

=== FILE: rows.dfy ===
/** Generic helpers over the row tables of the store: an optional value, an
    order-preserving filter (a queryset `.filter(...)`), and the "distinct
    keys" predicate that a database unique constraint stands for. */
module Rows {

  datatype Option<+T> = None | Some(value: T)

  /** The rows of `s` that satisfy `p`, in table order. */
  function Filter<T>(s: seq<T>, p: T -> bool): (r: seq<T>)
    ensures |r| <= |s|
    ensures forall x :: x in r ==> x in s && p(x)
    ensures forall x :: x in s && p(x) ==> x in r
  {
    if s == [] then [] else (if p(s[0]) then [s[0]] else []) + Filter(s[1..], p)
  }

  lemma {:induction false} FilterAppend<T>(a: seq<T>, b: seq<T>, p: T -> bool)
    ensures Filter(a + b, p) == Filter(a, p) + Filter(b, p)
  {
    if a == [] {
      assert a + b == b;
    } else {
      assert (a + b)[1..] == a[1..] + b;
      FilterAppend(a[1..], b, p);
    }
  }

  /** A filter that every row passes leaves the table as it is. */
  lemma {:induction false} FilterAll<T>(s: seq<T>, p: T -> bool)
    requires forall x :: x in s ==> p(x)
    ensures Filter(s, p) == s
  {
    if s != [] {
      FilterAll(s[1..], p);
    }
  }

  /** A filter that no row passes leaves nothing. */
  lemma {:induction false} FilterNone<T>(s: seq<T>, p: T -> bool)
    requires forall x :: x in s ==> !p(x)
    ensures Filter(s, p) == []
  {
    if s != [] {
      FilterNone(s[1..], p);
    }
  }

  /** No two rows of `s` share a key: the meaning of a unique constraint. */
  ghost predicate DistinctKeys<T, K>(s: seq<T>, key: T -> K)
  {
    forall i, j :: 0 <= i < j < |s| ==> key(s[i]) != key(s[j])
  }

  lemma {:induction false} FilterKeepsDistinct<T, K>(s: seq<T>, p: T -> bool, key: T -> K)
    requires DistinctKeys(s, key)
    ensures DistinctKeys(Filter(s, p), key)
  {
    if s != [] {
      var tail := Filter(s[1..], p);
      FilterKeepsDistinct(s[1..], p, key);
      forall x | x in tail ensures key(x) != key(s[0]) {
        var j :| 0 <= j < |s[1..]| && s[1..][j] == x;
        assert s[j + 1] == x;
      }
      var r := Filter(s, p);
      if p(s[0]) {
        assert r == [s[0]] + tail;
        forall i, j | 0 <= i < j < |r| ensures key(r[i]) != key(r[j]) {
          assert r[j] == tail[j - 1];
          if i > 0 {
            assert r[i] == tail[i - 1];
          }
        }
      } else {
        assert r == tail;
      }
    }
  }

  /** Appending a row whose key is new keeps the keys distinct. */
  lemma AppendKeepsDistinct<T, K>(s: seq<T>, x: T, key: T -> K)
    requires DistinctKeys(s, key)
    requires forall y :: y in s ==> key(y) != key(x)
    ensures DistinctKeys(s + [x], key)
  {
    var r := s + [x];
    forall i, j | 0 <= i < j < |r| ensures key(r[i]) != key(r[j]) {
      if j == |s| {
        assert r[i] in s;
      } else {
        assert r[i] == s[i] && r[j] == s[j];
      }
    }
  }

  /** Replacing a row by one with the same key keeps the keys distinct. */
  lemma UpdateKeepsDistinct<T, K>(s: seq<T>, k: nat, x: T, key: T -> K)
    requires DistinctKeys(s, key)
    requires k < |s| && key(x) == key(s[k])
    ensures DistinctKeys(s[k := x], key)
  {
    var r := s[k := x];
    forall i, j | 0 <= i < j < |r| ensures key(r[i]) != key(r[j]) {
      assert key(r[i]) == key(s[i]) && key(r[j]) == key(s[j]);
    }
  }

  /** Under a unique constraint, two rows with the same key are the same row. */
  lemma DistinctKeysSameKey<T, K>(s: seq<T>, key: T -> K, x: T, y: T)
    requires DistinctKeys(s, key)
    requires x in s && y in s && key(x) == key(y)
    ensures x == y
  {
    var i :| 0 <= i < |s| && s[i] == x;
    var j :| 0 <= j < |s| && s[j] == y;
    if i < j {
      assert key(s[i]) != key(s[j]);
    } else if j < i {
      assert key(s[j]) != key(s[i]);
    }
  }
}

=== FILE: serializers.dfy ===
/** RecipeCreateSerializer of backend/recipes/serializers.py: the two field
    validators, the ingredient-row editor `get_ingredients_list` (delete every
    row of the recipe, then update-or-create one row per input entry, adding
    amounts of repeated ids), and `create` / `update` that use it. */
module Serializers {
  import opened Rows
  import opened Models

  /** One entry of the submitted `ingredients` list: `{"id": ..., "amount": ...}`. */
  datatype IngredientInput = IngredientInput(id: IngredientId, amount: int)

  datatype Error =
    | ValidationError(messages: seq<string>)  // HTTP 400
    | DoesNotExist                            // Ingredient.objects.get found no row
    | NotFound                                // HTTP 404

  datatype Result<T> = Ok(value: T) | Err(error: Error)

  const NO_INGREDIENTS_MESSAGE: string := "Необходимо выбрать ингредиент!"
  const AMOUNT_MESSAGE: string := "Количество больше нуля"
  const COOKING_TIME_MESSAGE: string := "Время приготовления больше нуля"
  /** The `empty` error of a many-to-many field that may not be blank. */
  const EMPTY_TAGS_MESSAGE: string := "This list may not be empty."

  // ---------------------------------------------------------------- validators

  predicate AllAmountsPositive(ings: seq<IngredientInput>)
  {
    forall e :: e in ings ==> e.amount > 0
  }

  /** The index at which the validator's loop stops: the first entry whose amount
      is not positive, or |ings| when there is none. */
  function FirstNonPositive(ings: seq<IngredientInput>): (k: nat)
    ensures k <= |ings|
    ensures forall j :: 0 <= j < k ==> ings[j].amount > 0
    ensures k < |ings| ==> ings[k].amount <= 0
  {
    if ings == [] then 0
    else if ings[0].amount <= 0 then 0
    else 1 + FirstNonPositive(ings[1..])
  }

  /** validate_ingredients: `initial` is the raw `ingredients` of the request (None
      when the key is missing), `data` the validated field value it hands back. */
  function ValidateIngredients<D>(initial: Option<seq<IngredientInput>>, data: D): (r: Result<D>)
    ensures r.Ok? <==> initial.Some? && initial.value != [] && AllAmountsPositive(initial.value)
    ensures r.Ok? ==> r.value == data
    ensures (initial.None? || initial.value == []) ==> r == Err(ValidationError([NO_INGREDIENTS_MESSAGE]))
    ensures initial.Some? && initial.value != [] && !AllAmountsPositive(initial.value) ==>
              r == Err(ValidationError([AMOUNT_MESSAGE]))
  {
    if initial.None? || initial.value == [] then Err(ValidationError([NO_INGREDIENTS_MESSAGE]))
    else if FirstNonPositive(initial.value) < |initial.value| then Err(ValidationError([AMOUNT_MESSAGE]))
    else Ok(data)
  }

  /** validate_cooking_time: accepts exactly the values the model's
      MinValueValidator(1) accepts. */
  function ValidateCookingTime(t: int): (r: Result<int>)
    ensures r.Ok? <==> t >= COOKING_TIME_MIN
    ensures r.Ok? ==> r.value == t
    ensures r.Err? ==> r == Err(ValidationError([COOKING_TIME_MESSAGE]))
  {
    if t <= 0 then Err(ValidationError([COOKING_TIME_MESSAGE])) else Ok(t)
  }

  /** The `tags` field, derived from the many-to-many `Recipe.tags` that is not
      declared blank, refuses an empty list of ids. */
  function ValidateTags(tags: seq<TagId>): (r: Result<seq<TagId>>)
    ensures r.Ok? <==> tags != []
    ensures r.Ok? ==> r.value == tags
    ensures r.Err? ==> r == Err(ValidationError([EMPTY_TAGS_MESSAGE]))
  {
    if tags == [] then Err(ValidationError([EMPTY_TAGS_MESSAGE])) else Ok(tags)
  }

  function Messages<T>(r: Result<T>): seq<string>
  {
    if r.Err? && r.error.ValidationError? then r.error.messages else []
  }

  /** The field errors `is_valid` collects, in field order (declared fields, then
      model fields, then many-to-many relations): a check runs only for a field
      that is present in the request. */
  function ValidationMessages(ingredients: Option<seq<IngredientInput>>, cookingTime: Option<int>,
                              tags: Option<seq<TagId>>): (msgs: seq<string>)
  {
    (if ingredients.Some? then Messages(ValidateIngredients(ingredients, ingredients.value)) else [])
    + (if cookingTime.Some? then Messages(ValidateCookingTime(cookingTime.value)) else [])
    + (if tags.Some? then Messages(ValidateTags(tags.value)) else [])
  }

  /** A request passes validation exactly when what it submits satisfies the
      model's invariants: a non-empty ingredient list of positive amounts, a
      cooking time of at least one minute and a non-empty tag list. */
  lemma ValidationMessagesEmpty(ingredients: Option<seq<IngredientInput>>, cookingTime: Option<int>,
                                tags: Option<seq<TagId>>)
    ensures ValidationMessages(ingredients, cookingTime, tags) == [] <==>
              && (ingredients.Some? ==> ingredients.value != [] && AllAmountsPositive(ingredients.value))
              && (cookingTime.Some? ==> cookingTime.value >= COOKING_TIME_MIN)
              && (tags.Some? ==> tags.value != [])
  {
    if ingredients.Some? {
      var r := ValidateIngredients(ingredients, ingredients.value);
      assert r.Err? ==> |Messages(r)| == 1;
    }
    if cookingTime.Some? {
      assert ValidateCookingTime(cookingTime.value).Err? ==> |Messages(ValidateCookingTime(cookingTime.value))| == 1;
    }
    if tags.Some? {
      assert ValidateTags(tags.value).Err? ==> |Messages(ValidateTags(tags.value))| == 1;
    }
  }

  // ------------------------------------------------- the ingredient-row editor

  /** Where the row with key (ingredient, recipe) is, or |rows| when there is none. */
  function IndexOfKey(rows: seq<CountOfIngredient>, ingredient: IngredientId, recipe: RecipeId): (k: nat)
    ensures k <= |rows|
    ensures k < |rows| ==> CountKey(rows[k]) == (ingredient, recipe)
    ensures forall j :: 0 <= j < k ==> CountKey(rows[j]) != (ingredient, recipe)
  {
    if rows == [] then 0
    else if CountKey(rows[0]) == (ingredient, recipe) then 0
    else 1 + IndexOfKey(rows[1..], ingredient, recipe)
  }

  /** One step of the loop: `update_or_create(recipe, ingredient, defaults={'amount': amount})`,
      where `amount` was first incremented by `F('amount')` if the row exists. */
  function UpdateOrCreate(rows: seq<CountOfIngredient>, r: RecipeId, id: IngredientId, amount: int): seq<CountOfIngredient>
  {
    var k := IndexOfKey(rows, id, r);
    if k < |rows| then rows[k := WrittenRow(rows, r, id, amount)]
    else rows + [WrittenRow(rows, r, id, amount)]
  }

  /** The row that update_or_create writes and returns. */
  function WrittenRow(rows: seq<CountOfIngredient>, r: RecipeId, id: IngredientId, amount: int): (c: CountOfIngredient)
    ensures CountKey(c) == (id, r)
  {
    var k := IndexOfKey(rows, id, r);
    if k < |rows| then rows[k].(amount := rows[k].amount + amount)
    else CountOfIngredient(id, r, amount)
  }

  /** The loop over the submitted entries, in order. */
  function MergeAll(rows: seq<CountOfIngredient>, r: RecipeId, ings: seq<IngredientInput>): seq<CountOfIngredient>
    decreases |ings|
  {
    if ings == [] then rows
    else
      var last := ings[|ings| - 1];
      UpdateOrCreate(MergeAll(rows, r, ings[..|ings| - 1]), r, last.id, last.amount)
  }

  function IdsOf(ings: seq<IngredientInput>): set<IngredientId>
  {
    set e | e in ings :: e.id
  }

  /** The total amount the entries give for one ingredient id. */
  function SumFor(ings: seq<IngredientInput>, id: IngredientId): int
    decreases |ings|
  {
    if ings == [] then 0
    else
      var last := ings[|ings| - 1];
      SumFor(ings[..|ings| - 1], id) + (if last.id == id then last.amount else 0)
  }

  /** The index of the first entry whose ingredient does not exist (where
      `Ingredient.objects.get` raises), or |ings| when all exist. */
  function FirstMissing(ings: seq<IngredientInput>, known: set<IngredientId>): (k: nat)
    ensures k <= |ings|
    ensures forall j :: 0 <= j < k ==> ings[j].id in known
    ensures k < |ings| ==> ings[k].id !in known
  {
    if ings == [] then 0
    else if ings[0].id !in known then 0
    else 1 + FirstMissing(ings[1..], known)
  }

  /** The quantity table after get_ingredients_list(ings, r): every row of `r` deleted,
      then the entries merged in up to the first one whose ingredient does not exist. */
  function ReplacedCounts(counts: seq<CountOfIngredient>, known: set<IngredientId>,
                          ings: seq<IngredientInput>, r: RecipeId): seq<CountOfIngredient>
  {
    MergeAll(Filter(counts, NotOfRecipe(r)), r, ings[..FirstMissing(ings, known)])
  }

  lemma SumForAbsent(ings: seq<IngredientInput>, id: IngredientId)
    requires id !in IdsOf(ings)
    ensures SumFor(ings, id) == 0
    decreases |ings|
  {
    if ings != [] {
      var init := ings[..|ings| - 1];
      assert IdsOf(init) <= IdsOf(ings) by {
        forall e | e in init ensures e in ings { }
      }
      SumForAbsent(init, id);
    }
  }

  lemma {:induction false} FilterUpdateRejected<T>(s: seq<T>, k: nat, x: T, p: T -> bool)
    requires k < |s| && !p(s[k]) && !p(x)
    ensures Filter(s[k := x], p) == Filter(s, p)
  {
    if k > 0 {
      assert s[k := x][1..] == s[1..][k - 1 := x];
      FilterUpdateRejected(s[1..], k - 1, x, p);
    } else {
      assert s[k := x][1..] == s[1..];
    }
  }

  /** One update-or-create step keeps the keys distinct, leaves the rows of other
      recipes as they were, and writes only the row with the step's key. */
  lemma UpdateOrCreateKeys(rows: seq<CountOfIngredient>, r: RecipeId, id: IngredientId, amount: int)
    requires DistinctKeys(rows, CountKey)
    ensures DistinctKeys(UpdateOrCreate(rows, r, id, amount), CountKey)
    ensures forall c :: c in UpdateOrCreate(rows, r, id, amount) ==> c in rows || CountKey(c) == (id, r)
    ensures Filter(UpdateOrCreate(rows, r, id, amount), NotOfRecipe(r)) == Filter(rows, NotOfRecipe(r))
  {
    var after := UpdateOrCreate(rows, r, id, amount);
    var k := IndexOfKey(rows, id, r);
    if k < |rows| {
      var row := rows[k].(amount := rows[k].amount + amount);
      UpdateKeepsDistinct(rows, k, row, CountKey);
      forall c | c in after ensures c in rows || CountKey(c) == (id, r) {
        var j :| 0 <= j < |after| && after[j] == c;
        if j != k { assert rows[j] == c; }
      }
      FilterUpdateRejected(rows, k, row, NotOfRecipe(r));
    } else {
      var row := CountOfIngredient(id, r, amount);
      AppendKeepsDistinct(rows, row, CountKey);
      FilterAppend(rows, [row], NotOfRecipe(r));
      assert Filter([row], NotOfRecipe(r)) == [];
    }
  }

  /** The amount an update-or-create step leaves: the existing amount plus the new
      one (the `F('amount')` increment), or the new one when the row is created;
      every row with another key stays. */
  lemma UpdateOrCreateAmount(rows: seq<CountOfIngredient>, r: RecipeId, id: IngredientId, amount: int)
    requires DistinctKeys(rows, CountKey)
    ensures forall n :: CountOfIngredient(id, r, n) in rows ==>
              CountOfIngredient(id, r, n + amount) in UpdateOrCreate(rows, r, id, amount)
    ensures (forall c :: c in rows ==> CountKey(c) != (id, r)) ==>
              CountOfIngredient(id, r, amount) in UpdateOrCreate(rows, r, id, amount)
    ensures forall c :: c in rows && CountKey(c) != (id, r) ==> c in UpdateOrCreate(rows, r, id, amount)
  {
    var after := UpdateOrCreate(rows, r, id, amount);
    var k := IndexOfKey(rows, id, r);
    if k < |rows| {
      forall n | CountOfIngredient(id, r, n) in rows ensures CountOfIngredient(id, r, n + amount) in after {
        var j :| 0 <= j < |rows| && rows[j] == CountOfIngredient(id, r, n);
        assert j == k;
        assert after[k] == CountOfIngredient(id, r, n + amount);
      }
      forall c | c in rows && CountKey(c) != (id, r) ensures c in after {
        var j :| 0 <= j < |rows| && rows[j] == c;
        assert after[j] == c;
      }
    } else {
      assert after[|rows|] == CountOfIngredient(id, r, amount);
    }
  }

  lemma UpdateOrCreatePositive(rows: seq<CountOfIngredient>, r: RecipeId, id: IngredientId, amount: int)
    requires forall c :: c in rows ==> c.amount > 0
    requires amount > 0
    ensures forall c :: c in UpdateOrCreate(rows, r, id, amount) ==> c.amount > 0
  {
    var after := UpdateOrCreate(rows, r, id, amount);
    var k := IndexOfKey(rows, id, r);
    if k < |rows| {
      forall c | c in after ensures c.amount > 0 {
        var j :| 0 <= j < |after| && after[j] == c;
        assert rows[j] in rows;
      }
    }
  }

  /** The merge loop keeps the keys distinct and leaves every other recipe's rows
      as they were. */
  lemma {:induction false} MergeAllKeys(rows: seq<CountOfIngredient>, r: RecipeId, ings: seq<IngredientInput>)
    requires DistinctKeys(rows, CountKey)
    ensures DistinctKeys(MergeAll(rows, r, ings), CountKey)
    ensures Filter(MergeAll(rows, r, ings), NotOfRecipe(r)) == Filter(rows, NotOfRecipe(r))
    decreases |ings|
  {
    if ings != [] {
      var init := ings[..|ings| - 1];
      var last := ings[|ings| - 1];
      MergeAllKeys(rows, r, init);
      UpdateOrCreateKeys(MergeAll(rows, r, init), r, last.id, last.amount);
    }
  }

  lemma IdsOfSnoc(ings: seq<IngredientInput>)
    requires ings != []
    ensures IdsOf(ings) == IdsOf(ings[..|ings| - 1]) + {ings[|ings| - 1].id}
  {
    assert ings == ings[..|ings| - 1] + [ings[|ings| - 1]];
  }

  /** The merge loop writes rows of `r` only for submitted ids. */
  lemma {:induction false} MergeAllShape(rows: seq<CountOfIngredient>, r: RecipeId, ings: seq<IngredientInput>)
    requires DistinctKeys(rows, CountKey)
    ensures forall c :: c in MergeAll(rows, r, ings) && c.recipe == r ==> c in rows || c.ingredient in IdsOf(ings)
    decreases |ings|
  {
    if ings != [] {
      var init := ings[..|ings| - 1];
      var last := ings[|ings| - 1];
      MergeAllShape(rows, r, init);
      MergeAllKeys(rows, r, init);
      UpdateOrCreateKeys(MergeAll(rows, r, init), r, last.id, last.amount);
      IdsOfSnoc(ings);
    }
  }

  /** With positive amounts in the table and in the entries, every row stays positive. */
  lemma {:induction false} MergeAllPositive(rows: seq<CountOfIngredient>, r: RecipeId, ings: seq<IngredientInput>)
    requires forall c :: c in rows ==> c.amount > 0
    requires AllAmountsPositive(ings)
    ensures forall c :: c in MergeAll(rows, r, ings) ==> c.amount > 0
    decreases |ings|
  {
    if ings != [] {
      var init := ings[..|ings| - 1];
      var last := ings[|ings| - 1];
      assert AllAmountsPositive(init) by {
        forall e | e in init ensures e.amount > 0 { assert e in ings; }
      }
      assert last in ings;
      MergeAllPositive(rows, r, init);
      UpdateOrCreatePositive(MergeAll(rows, r, init), r, last.id, last.amount);
    }
  }

  /** The merge loop, run on a table holding no row of `r`, leaves for a submitted
      id a row carrying the sum of that id's amounts. */
  lemma {:induction false} MergeAllSumAt(rows: seq<CountOfIngredient>, r: RecipeId, ings: seq<IngredientInput>, id: IngredientId)
    requires DistinctKeys(rows, CountKey)
    requires forall c :: c in rows ==> c.recipe != r
    requires id in IdsOf(ings)
    ensures CountOfIngredient(id, r, SumFor(ings, id)) in MergeAll(rows, r, ings)
    decreases |ings|
  {
    var init := ings[..|ings| - 1];
    var last := ings[|ings| - 1];
    var before := MergeAll(rows, r, init);
    assert MergeAll(rows, r, ings) == UpdateOrCreate(before, r, last.id, last.amount);
    assert SumFor(ings, id) == SumFor(init, id) + (if last.id == id then last.amount else 0);
    IdsOfSnoc(ings);
    MergeAllKeys(rows, r, init);
    MergeAllShape(rows, r, init);
    UpdateOrCreateAmount(before, r, last.id, last.amount);
    if id != last.id {
      assert id in IdsOf(init);
      MergeAllSumAt(rows, r, init, id);
    } else if id in IdsOf(init) {
      MergeAllSumAt(rows, r, init, id);
    } else {
      SumForAbsent(init, id);
      forall c | c in before ensures CountKey(c) != (id, r) {
        if c.recipe == r { assert c !in rows; }
      }
    }
  }

  lemma MergeAllSums(rows: seq<CountOfIngredient>, r: RecipeId, ings: seq<IngredientInput>)
    requires DistinctKeys(rows, CountKey)
    requires forall c :: c in rows ==> c.recipe != r
    ensures forall id :: id in IdsOf(ings) ==> CountOfIngredient(id, r, SumFor(ings, id)) in MergeAll(rows, r, ings)
  {
    forall id | id in IdsOf(ings) ensures CountOfIngredient(id, r, SumFor(ings, id)) in MergeAll(rows, r, ings) {
      MergeAllSumAt(rows, r, ings, id);
    }
  }

  /** When every submitted id exists, get_ingredients_list is the merge loop run
      on the table without the recipe's rows. */
  lemma ReplacedCountsAllKnown(counts: seq<CountOfIngredient>, known: set<IngredientId>,
                               ings: seq<IngredientInput>, r: RecipeId)
    requires DistinctKeys(counts, CountKey)
    requires FirstMissing(ings, known) == |ings|
    ensures ReplacedCounts(counts, known, ings, r) == MergeAll(Filter(counts, NotOfRecipe(r)), r, ings)
    ensures DistinctKeys(Filter(counts, NotOfRecipe(r)), CountKey)
    ensures forall c :: c in Filter(counts, NotOfRecipe(r)) ==> c.recipe != r
  {
    assert ings[..|ings|] == ings;
    FilterKeepsDistinct(counts, NotOfRecipe(r), CountKey);
  }

  /** get_ingredients_list keeps the unique constraint and does not touch the rows
      of any other recipe. */
  lemma ReplacedCountsKeys(counts: seq<CountOfIngredient>, known: set<IngredientId>,
                           ings: seq<IngredientInput>, r: RecipeId)
    requires DistinctKeys(counts, CountKey)
    ensures DistinctKeys(ReplacedCounts(counts, known, ings, r), CountKey)
    ensures Filter(ReplacedCounts(counts, known, ings, r), NotOfRecipe(r)) == Filter(counts, NotOfRecipe(r))
  {
    var kept := Filter(counts, NotOfRecipe(r));
    FilterKeepsDistinct(counts, NotOfRecipe(r), CountKey);
    MergeAllKeys(kept, r, ings[..FirstMissing(ings, known)]);
    FilterAll(kept, NotOfRecipe(r));
  }

  /** get_ingredients_list when every submitted id exists: recipe `r` ends with exactly
      one row per distinct submitted id, whose amount is the sum of that id's amounts,
      and no row of `r` for any other id. */
  lemma ReplacedCountsSums(counts: seq<CountOfIngredient>, known: set<IngredientId>,
                           ings: seq<IngredientInput>, r: RecipeId)
    requires DistinctKeys(counts, CountKey)
    requires FirstMissing(ings, known) == |ings|
    ensures forall id :: id in IdsOf(ings) ==> CountOfIngredient(id, r, SumFor(ings, id)) in ReplacedCounts(counts, known, ings, r)
    ensures forall c :: c in ReplacedCounts(counts, known, ings, r) && c.recipe == r ==>
              c.ingredient in IdsOf(ings) && c.amount == SumFor(ings, c.ingredient)
  {
    var kept := Filter(counts, NotOfRecipe(r));
    var after := ReplacedCounts(counts, known, ings, r);
    ReplacedCountsAllKnown(counts, known, ings, r);
    MergeAllSums(kept, r, ings);
    MergeAllKeys(kept, r, ings);
    forall c | c in after && c.recipe == r
      ensures c.ingredient in IdsOf(ings) && c.amount == SumFor(ings, c.ingredient)
    {
      MergeAllShape(kept, r, ings);
      DistinctKeysSameKey(after, CountKey, c, CountOfIngredient(c.ingredient, r, SumFor(ings, c.ingredient)));
    }
  }

  /** An id that does not exist makes get_ingredients_list fail. */
  lemma MissingIngredientFails(ings: seq<IngredientInput>, known: set<IngredientId>)
    ensures FirstMissing(ings, known) < |ings| <==> exists e :: e in ings && e.id !in known
  {
    var k := FirstMissing(ings, known);
    if k < |ings| {
      assert ings[k] in ings;
    } else {
      forall e | e in ings ensures e.id in known {
        var j :| 0 <= j < |ings| && ings[j] == e;
      }
    }
  }

  /** The quantity table keeps the model's invariants after get_ingredients_list,
      including when it stops at a missing ingredient having written part of the rows. */
  lemma ReplacedCountsValid(counts: seq<CountOfIngredient>, known: set<IngredientId>, recipes: set<RecipeId>,
                            ings: seq<IngredientInput>, r: RecipeId)
    requires CountsValid(counts, known, recipes)
    requires r in recipes
    requires AllAmountsPositive(ings)
    ensures CountsValid(ReplacedCounts(counts, known, ings, r), known, recipes)
  {
    var k := FirstMissing(ings, known);
    var prefix := ings[..k];
    var kept := Filter(counts, NotOfRecipe(r));
    FilterKeepsDistinct(counts, NotOfRecipe(r), CountKey);
    assert AllAmountsPositive(prefix) by {
      forall e | e in prefix ensures e.amount > 0 { assert e in ings; }
    }
    MergeAllKeys(kept, r, prefix);
    MergeAllShape(kept, r, prefix);
    MergeAllPositive(kept, r, prefix);
    forall id | id in IdsOf(prefix) ensures id in known {
      var e :| e in prefix && e.id == id;
      var j :| 0 <= j < |prefix| && prefix[j] == e;
    }
  }

  /** The rows the deletion loop leaves: each row is looked at once, and those of
      `r` are dropped. */
  method RowsKept(rows: seq<CountOfIngredient>, r: RecipeId) returns (kept: seq<CountOfIngredient>)
    ensures kept == Filter(rows, NotOfRecipe(r))
  {
    kept := [];
    var i := 0;
    while i < |rows|
      invariant i <= |rows|
      invariant kept == Filter(rows[..i], NotOfRecipe(r))
    {
      FilterAppend(rows[..i], [rows[i]], NotOfRecipe(r));
      assert rows[..i + 1] == rows[..i] + [rows[i]];
      if rows[i].recipe != r {
        kept := kept + [rows[i]];
      }
      i := i + 1;
    }
    assert rows[..i] == rows;
  }

  /** The first half of get_ingredients_list: every quantity row of `r` is deleted,
      one at a time. */
  method DeleteRowsOf(store: Store, r: RecipeId)
    modifies store
    ensures store.counts == Filter(old(store.counts), NotOfRecipe(r))
    ensures store.Snapshot() == old(store.Snapshot()).(counts := store.counts)
    ensures store.nextRecipeId == old(store.nextRecipeId)
  {
    store.counts := RowsKept(store.counts, r);
  }

  lemma MergeAllStep(rows: seq<CountOfIngredient>, r: RecipeId, ings: seq<IngredientInput>, k: nat)
    requires k < |ings|
    ensures MergeAll(rows, r, ings[..k + 1]) == UpdateOrCreate(MergeAll(rows, r, ings[..k]), r, ings[k].id, ings[k].amount)
  {
    assert ings[..k + 1][..k] == ings[..k];
  }

  /** The loop stops at the entry it is on when that entry's ingredient is the first
      one missing. */
  lemma {:induction false} FirstMissingAt(ings: seq<IngredientInput>, known: set<IngredientId>, k: nat)
    requires k <= |ings|
    requires forall j :: 0 <= j < k ==> ings[j].id in known
    requires k < |ings| ==> ings[k].id !in known
    ensures FirstMissing(ings, known) == k
  {
    if k > 0 {
      FirstMissingAt(ings[1..], known, k - 1);
    }
  }

  /** The second half of get_ingredients_list: one update-or-create per submitted
      entry, in order, stopping at the first entry whose ingredient does not exist. */
  method MergeEntries(store: Store, ings: seq<IngredientInput>, r: RecipeId)
    returns (res: Result<seq<CountOfIngredient>>)
    modifies store
    ensures store.counts == MergeAll(old(store.counts), r, ings[..FirstMissing(ings, store.ingredients.Keys)])
    ensures store.Snapshot() == old(store.Snapshot()).(counts := store.counts)
    ensures store.nextRecipeId == old(store.nextRecipeId)
    ensures res.Ok? <==> FirstMissing(ings, store.ingredients.Keys) == |ings|
    ensures res.Err? ==> res.error == DoesNotExist
    ensures res.Ok? ==> |res.value| == |ings|
    ensures res.Ok? ==> forall k :: 0 <= k < |ings| ==> CountKey(res.value[k]) == (ings[k].id, r)
  {
    ghost var kept := store.counts;
    var known := store.ingredients;
    var written: seq<CountOfIngredient> := [];
    for k := 0 to |ings|
      invariant store.counts == MergeAll(kept, r, ings[..k])
      invariant forall j :: 0 <= j < k ==> ings[j].id in known
      invariant |written| == k
      invariant forall j :: 0 <= j < k ==> CountKey(written[j]) == (ings[j].id, r)
      invariant store.Snapshot() == old(store.Snapshot()).(counts := store.counts)
      invariant store.nextRecipeId == old(store.nextRecipeId)
    {
      // the ingredient lookup raises DoesNotExist for an unknown id
      if ings[k].id !in known {
        FirstMissingAt(ings, known.Keys, k);
        return Err(DoesNotExist);
      }
      MergeAllStep(kept, r, ings, k);
      written := written + [WrittenRow(store.counts, r, ings[k].id, ings[k].amount)];
      store.counts := UpdateOrCreate(store.counts, r, ings[k].id, ings[k].amount);
    }
    assert ings[..|ings|] == ings;
    FirstMissingAt(ings, known.Keys, |ings|);
    res := Ok(written);
  }

  /** get_ingredients_list(ingredients, recipe): deletes the recipe's rows, then updates
      or creates a row per submitted entry and collects the rows it wrote. */
  method GetIngredientsList(store: Store, ings: seq<IngredientInput>, r: RecipeId)
    returns (res: Result<seq<CountOfIngredient>>)
    modifies store
    ensures store.counts == ReplacedCounts(old(store.counts), old(store.ingredients).Keys, ings, r)
    ensures store.Snapshot() == old(store.Snapshot()).(counts := store.counts)
    ensures store.nextRecipeId == old(store.nextRecipeId)
    ensures res.Ok? <==> FirstMissing(ings, store.ingredients.Keys) == |ings|
    ensures res.Err? ==> res.error == DoesNotExist
    ensures res.Ok? ==> |res.value| == |ings|
    ensures res.Ok? ==> forall k :: 0 <= k < |ings| ==> CountKey(res.value[k]) == (ings[k].id, r)
  {
    DeleteRowsOf(store, r);
    res := MergeEntries(store, ings, r);
  }

  // ------------------------------------------------------------ create / update

  /** The body of a create request; tag ids are the ones the tag field resolved. */
  datatype NewRecipe = NewRecipe(name: string, text: string, image: string, cookingTime: int,
                                 tags: seq<TagId>, ingredients: seq<IngredientInput>)

  /** The body of an update request: None is a field the request leaves out. */
  datatype RecipeChanges = RecipeChanges(name: Option<string>, text: Option<string>,
                                         cookingTime: Option<int>, image: Option<string>,
                                         tags: Option<seq<TagId>>,
                                         ingredients: Option<seq<IngredientInput>>)

  /** `validated_data.get(key, default)`. */
  function GetOr<T>(o: Option<T>, default: T): T
  {
    if o.Some? then o.value else default
  }

  /** A list that `if tags_data:` / `if ingredients_data:` treats as true: present and non-empty. */
  predicate Replaces<T>(o: Option<seq<T>>)
  {
    o.Some? && o.value != []
  }

  /** The scalar assignments at the top of update(), made on the in-memory instance. */
  function ApplyScalars(rec: Recipe, ch: RecipeChanges): (r: Recipe)
  {
    rec.(name := GetOr(ch.name, rec.name), text := GetOr(ch.text, rec.text),
         cookingTime := GetOr(ch.cookingTime, rec.cookingTime), image := GetOr(ch.image, rec.image))
  }

  /** `if tags_data: instance.tags.set(tags_data)`. */
  function UpdatedTags(tags: set<TagId>, submitted: Option<seq<TagId>>): set<TagId>
  {
    if Replaces(submitted) then set t | t in submitted.value else tags
  }

  /** A field left out of the request keeps its old value; a present one takes the
      submitted value; author and tags are never touched by the scalar assignments. */
  lemma ApplyScalarsFields(rec: Recipe, ch: RecipeChanges)
    ensures ApplyScalars(rec, ch).author == rec.author && ApplyScalars(rec, ch).tags == rec.tags
    ensures ch.name.None? ==> ApplyScalars(rec, ch).name == rec.name
    ensures ch.text.None? ==> ApplyScalars(rec, ch).text == rec.text
    ensures ch.cookingTime.None? ==> ApplyScalars(rec, ch).cookingTime == rec.cookingTime
    ensures ch.image.None? ==> ApplyScalars(rec, ch).image == rec.image
    ensures ch.name.Some? ==> ApplyScalars(rec, ch).name == ch.name.value
    ensures ch.text.Some? ==> ApplyScalars(rec, ch).text == ch.text.value
    ensures ch.cookingTime.Some? ==> ApplyScalars(rec, ch).cookingTime == ch.cookingTime.value
    ensures ch.image.Some? ==> ApplyScalars(rec, ch).image == ch.image.value
  {
  }

  /** The tags are replaced by exactly the submitted ones, or kept when the list
      is absent or empty. */
  lemma UpdatedTagsSpec(tags: set<TagId>, submitted: Option<seq<TagId>>)
    ensures Replaces(submitted) ==> forall t :: t in UpdatedTags(tags, submitted) <==> t in submitted.value
    ensures !Replaces(submitted) ==> UpdatedTags(tags, submitted) == tags
  {
  }

  /** What create() leaves, given the tables before (`before`, with `next` the id the new
      recipe gets) and after it: the recipe row goes in first and without tags, then the
      ingredient rows, and the tags only when every ingredient exists. */
  ghost predicate CreateOutcome(before: Db, next: RecipeId, author: UserId, data: NewRecipe,
                                after: Db, nextAfter: RecipeId, res: Result<RecipeId>)
  {
    var row := Recipe(data.name, data.text, data.image, data.cookingTime, author, set t | t in data.tags);
    && next !in before.recipes
    && nextAfter == next + 1
    && after.ingredients == before.ingredients && after.tags == before.tags
    && after.shoppingCart == before.shoppingCart && after.favorites == before.favorites
    && after.counts == ReplacedCounts(before.counts, before.ingredients.Keys, data.ingredients, next)
    && (res.Ok? <==> forall e :: e in data.ingredients ==> e.id in before.ingredients)
    && (res.Ok? ==> res.value == next && after.recipes == before.recipes[next := row])
    && (res.Err? ==> res.error == DoesNotExist && after.recipes == before.recipes[next := row.(tags := {})])
  }

  /** What update() leaves: tags and ingredient rows are replaced only by non-empty
      lists; the scalar fields reach the table only when the whole call succeeds. */
  ghost predicate UpdateOutcome(before: Db, id: RecipeId, ch: RecipeChanges, after: Db, res: Result<Recipe>)
  {
    && id in before.recipes
    && after.ingredients == before.ingredients && after.tags == before.tags
    && after.shoppingCart == before.shoppingCart && after.favorites == before.favorites
    && (Replaces(ch.ingredients) ==>
          after.counts == ReplacedCounts(before.counts, before.ingredients.Keys, ch.ingredients.value, id))
    && (!Replaces(ch.ingredients) ==> after.counts == before.counts)
    && (res.Ok? <==> !Replaces(ch.ingredients) || forall e :: e in ch.ingredients.value ==> e.id in before.ingredients)
    && var tags := UpdatedTags(before.recipes[id].tags, ch.tags);
       && (res.Ok? ==> res.value == ApplyScalars(before.recipes[id], ch).(tags := tags)
                       && after.recipes == before.recipes[id := res.value])
       && (res.Err? ==> res.error == DoesNotExist
                        && after.recipes == before.recipes[id := before.recipes[id].(tags := tags)])
  }

  /** create(validated_data): writes the recipe row, then its ingredient rows, then its tags.
      The data has passed validation. */
  method Create(store: Store, author: UserId, data: NewRecipe) returns (res: Result<RecipeId>)
    requires store.Valid()
    requires data.cookingTime >= COOKING_TIME_MIN
    requires AllAmountsPositive(data.ingredients)
    requires forall t :: t in data.tags ==> t in store.tags
    modifies store
    ensures store.Valid()
    ensures CreateOutcome(old(store.Snapshot()), old(store.nextRecipeId), author, data,
                          store.Snapshot(), store.nextRecipeId, res)
  {
    var row := Recipe(data.name, data.text, data.image, data.cookingTime, author, {});
    // the model row, written before the ingredient rows and without tags
    var id := store.InsertRecipe(row);
    ReplacedCountsValid(store.counts, store.ingredients.Keys, store.recipes.Keys, data.ingredients, id);
    MissingIngredientFails(data.ingredients, store.ingredients.Keys);
    var rows := GetIngredientsList(store, data.ingredients, id);
    if rows.Err? {
      return Err(rows.error);
    }
    // the tag links; re-linking the rows just written changes nothing
    assert store.tags == old(store.tags);
    assert forall t :: t in (set t | t in data.tags) ==> t in store.tags.Keys;
    store.SaveRecipe(id, row.(tags := set t | t in data.tags));
    return Ok(id);
  }

  /** update(instance, validated_data). The scalar fields reach the table only through
      the final instance.save(); tags.set writes at once; so when an ingredient does not
      exist, the new tags and part of the new rows are stored but not the scalars. */
  method Update(store: Store, id: RecipeId, ch: RecipeChanges) returns (res: Result<Recipe>)
    requires store.Valid()
    requires id in store.recipes
    requires ch.cookingTime.Some? ==> ch.cookingTime.value >= COOKING_TIME_MIN
    requires ch.ingredients.Some? ==> AllAmountsPositive(ch.ingredients.value)
    requires ch.tags.Some? ==> forall t :: t in ch.tags.value ==> t in store.tags
    modifies store
    ensures store.Valid()
    ensures UpdateOutcome(old(store.Snapshot()), id, ch, store.Snapshot(), res)
    ensures store.nextRecipeId == old(store.nextRecipeId)
  {
    var instance := ApplyScalars(store.recipes[id], ch);
    if Replaces(ch.tags) {
      var tags := UpdatedTags(store.recipes[id].tags, ch.tags);
      UpdatedTagsSpec(store.recipes[id].tags, ch.tags);
      assert forall t :: t in tags ==> t in store.tags.Keys;
      store.SaveRecipe(id, store.recipes[id].(tags := tags));
      instance := instance.(tags := tags);
    }
    if Replaces(ch.ingredients) {
      ReplacedCountsValid(store.counts, store.ingredients.Keys, store.recipes.Keys, ch.ingredients.value, id);
      MissingIngredientFails(ch.ingredients.value, store.ingredients.Keys);
      var rows := GetIngredientsList(store, ch.ingredients.value, id);
      if rows.Err? {
        return Err(rows.error);
      }
    }
    // the final save writes the scalar fields
    store.SaveRecipe(id, instance);
    return Ok(instance);
  }

  /** POST of a recipe: `is_valid` runs the field checks and validators, and only a
      request that passes them reaches create(); a rejected one writes nothing. The
      tag ids are ones the tag field has resolved; an empty tag list is refused. */
  method PostRecipe(store: Store, author: UserId, data: NewRecipe) returns (res: Result<RecipeId>)
    requires store.Valid()
    requires forall t :: t in data.tags ==> t in store.tags
    modifies store
    ensures store.Valid()
    ensures var msgs := ValidationMessages(Some(data.ingredients), Some(data.cookingTime), Some(data.tags));
      && (msgs != [] ==> res == Err(ValidationError(msgs)) && unchanged(store))
      && (msgs == [] ==> CreateOutcome(old(store.Snapshot()), old(store.nextRecipeId), author, data,
                                       store.Snapshot(), store.nextRecipeId, res))
    ensures data.tags == [] ==> res.Err? && res.error.ValidationError? && unchanged(store)
  {
    var msgs := ValidationMessages(Some(data.ingredients), Some(data.cookingTime), Some(data.tags));
    if msgs != [] {
      return Err(ValidationError(msgs));
    }
    ValidationMessagesEmpty(Some(data.ingredients), Some(data.cookingTime), Some(data.tags));
    res := Create(store, author, data);
  }

  /** PATCH of a recipe: a missing recipe is a 404; then the checks and validators of
      the fields present in the request; a rejected request writes nothing. The tag
      ids are ones the tag field has resolved; an empty tag list is refused. */
  method PatchRecipe(store: Store, id: RecipeId, ch: RecipeChanges) returns (res: Result<Recipe>)
    requires store.Valid()
    requires ch.tags.Some? ==> forall t :: t in ch.tags.value ==> t in store.tags
    modifies store
    ensures store.Valid()
    ensures id !in old(store.recipes) ==> res == Err(NotFound) && unchanged(store)
    ensures var msgs := ValidationMessages(ch.ingredients, ch.cookingTime, ch.tags);
      && (id in old(store.recipes) && msgs != [] ==> res == Err(ValidationError(msgs)) && unchanged(store))
      && (id in old(store.recipes) && msgs == [] ==>
            UpdateOutcome(old(store.Snapshot()), id, ch, store.Snapshot(), res)
            && store.nextRecipeId == old(store.nextRecipeId))
    ensures ch.tags == Some([]) ==> res.Err? && unchanged(store)
  {
    if id !in store.recipes {
      return Err(NotFound);
    }
    var msgs := ValidationMessages(ch.ingredients, ch.cookingTime, ch.tags);
    if msgs != [] {
      return Err(ValidationError(msgs));
    }
    ValidationMessagesEmpty(ch.ingredients, ch.cookingTime, ch.tags);
    res := Update(store, id, ch);
  }
}

=== FILE: views.dfy ===
/** RecipeViewSet of backend/recipes/views.py: the shopping-list download (a
    group-by-sum over the quantity rows of the recipes in the user's cart, then a
    numbered text rendering), and the cart / favourite membership actions. */
module Views {
  import opened Rows
  import opened Models

  // ---------------------------------------------------------------- aggregation

  /** A quantity row joined with its ingredient: `ingredient__name`,
      `ingredient__measurement_unit` and the row's `amount`. */
  datatype Item = Item(name: string, unit: string, amount: int)

  /** One group of `.values(name, unit).annotate(total=Sum('amount'))`. */
  datatype ShoppingLine = ShoppingLine(name: string, unit: string, total: int)

  function ItemKey(it: Item): (string, string)
  {
    (it.name, it.unit)
  }

  function LineKey(l: ShoppingLine): (string, string)
  {
    (l.name, l.unit)
  }

  /** The recipes `user` has in the shopping cart. */
  function CartRecipes(cart: seq<Membership>, user: UserId): set<RecipeId>
  {
    set m | m in cart && m.user == user :: m.recipe
  }

  function InCart(recipes: set<RecipeId>): CountOfIngredient -> bool
  {
    (c: CountOfIngredient) => c.recipe in recipes
  }

  /** The join with the ingredient table: a row whose ingredient is missing joins nothing. */
  function Project(rows: seq<CountOfIngredient>, ingredients: map<IngredientId, Ingredient>): seq<Item>
  {
    if rows == [] then []
    else
      var c := rows[0];
      (if c.ingredient in ingredients
       then [Item(ingredients[c.ingredient].name, ingredients[c.ingredient].measurementUnit, c.amount)]
       else [])
      + Project(rows[1..], ingredients)
  }

  /** `CountOfIngredient.objects.filter(recipe__shopping_cart__user=user).values(...)`,
      in table order. */
  function CartItems(db: Db, user: UserId): seq<Item>
  {
    Project(Filter(db.counts, InCart(CartRecipes(db.shoppingCart, user))), db.ingredients)
  }

  function KeysOf(items: seq<Item>): set<(string, string)>
  {
    set it | it in items :: ItemKey(it)
  }

  function LineKeys(lines: seq<ShoppingLine>): set<(string, string)>
  {
    set l | l in lines :: LineKey(l)
  }

  /** The sum of the amounts of the items with one (name, unit) key. */
  function SumKey(items: seq<Item>, key: (string, string)): int
    decreases |items|
  {
    if items == [] then 0
    else
      var last := items[|items| - 1];
      SumKey(items[..|items| - 1], key) + (if ItemKey(last) == key then last.amount else 0)
  }

  function AmountOf(items: seq<Item>): int
    decreases |items|
  {
    if items == [] then 0 else AmountOf(items[..|items| - 1]) + items[|items| - 1].amount
  }

  function TotalOf(lines: seq<ShoppingLine>): int
    decreases |lines|
  {
    if lines == [] then 0 else TotalOf(lines[..|lines| - 1]) + lines[|lines| - 1].total
  }

  function IndexOfLine(lines: seq<ShoppingLine>, key: (string, string)): (k: nat)
    ensures k <= |lines|
    ensures k < |lines| ==> LineKey(lines[k]) == key
    ensures forall j :: 0 <= j < k ==> LineKey(lines[j]) != key
  {
    if lines == [] then 0
    else if LineKey(lines[0]) == key then 0
    else 1 + IndexOfLine(lines[1..], key)
  }

  /** Adds one item to its group, opening a new group at the end for a new key. */
  function AddItem(lines: seq<ShoppingLine>, it: Item): seq<ShoppingLine>
  {
    var k := IndexOfLine(lines, ItemKey(it));
    if k < |lines| then lines[k := lines[k].(total := lines[k].total + it.amount)]
    else lines + [ShoppingLine(it.name, it.unit, it.amount)]
  }

  /** The group-by-sum. The query leaves the order of the groups unspecified; this
      model lists them in the order their key is first met. */
  function GroupSum(items: seq<Item>): seq<ShoppingLine>
    decreases |items|
  {
    if items == [] then []
    else AddItem(GroupSum(items[..|items| - 1]), items[|items| - 1])
  }

  /** The list `download_shopping_cart` renders for `user`. */
  function Aggregate(db: Db, user: UserId): seq<ShoppingLine>
  {
    GroupSum(CartItems(db, user))
  }

  lemma SumKeyAbsent(items: seq<Item>, key: (string, string))
    requires key !in KeysOf(items)
    ensures SumKey(items, key) == 0
    decreases |items|
  {
    if items != [] {
      var init := items[..|items| - 1];
      assert KeysOf(init) <= KeysOf(items) by {
        forall it | it in init ensures it in items { }
      }
      SumKeyAbsent(init, key);
    }
  }

  lemma AddItemShape(lines: seq<ShoppingLine>, it: Item)
    requires DistinctKeys(lines, LineKey)
    ensures DistinctKeys(AddItem(lines, it), LineKey)
    ensures LineKeys(AddItem(lines, it)) == LineKeys(lines) + {ItemKey(it)}
    ensures forall l :: l in AddItem(lines, it) && LineKey(l) != ItemKey(it) ==> l in lines
    ensures forall l :: l in lines && LineKey(l) != ItemKey(it) ==> l in AddItem(lines, it)
    ensures |AddItem(lines, it)| == |lines| + (if ItemKey(it) in LineKeys(lines) then 0 else 1)
  {
    var after := AddItem(lines, it);
    var k := IndexOfLine(lines, ItemKey(it));
    if k < |lines| {
      var l := lines[k].(total := lines[k].total + it.amount);
      UpdateKeepsDistinct(lines, k, l, LineKey);
      forall x | x in after ensures x in lines || LineKey(x) == ItemKey(it) {
        var j :| 0 <= j < |after| && after[j] == x;
        if j != k { assert lines[j] == x; }
      }
      forall x | x in lines && LineKey(x) != ItemKey(it) ensures x in after {
        var j :| 0 <= j < |lines| && lines[j] == x;
        assert after[j] == x;
      }
      assert LineKeys(after) == LineKeys(lines) + {ItemKey(it)} by {
        forall key | key in LineKeys(lines) ensures key in LineKeys(after) {
          var x :| x in lines && LineKey(x) == key;
          var j :| 0 <= j < |lines| && lines[j] == x;
          assert LineKey(after[j]) == key;
        }
        assert LineKey(after[k]) == ItemKey(it);
      }
      assert ItemKey(it) in LineKeys(lines) by {
        assert LineKey(lines[k]) == ItemKey(it);
      }
    } else {
      var l := ShoppingLine(it.name, it.unit, it.amount);
      AppendKeepsDistinct(lines, l, LineKey);
      assert after[|lines|] == l;
      assert ItemKey(it) !in LineKeys(lines) by {
        forall x | x in lines ensures LineKey(x) != ItemKey(it) {
          var j :| 0 <= j < |lines| && lines[j] == x;
        }
      }
    }
  }

  lemma AddItemTotal(lines: seq<ShoppingLine>, it: Item)
    requires DistinctKeys(lines, LineKey)
    ensures forall t :: ShoppingLine(it.name, it.unit, t) in lines ==>
              ShoppingLine(it.name, it.unit, t + it.amount) in AddItem(lines, it)
    ensures ItemKey(it) !in LineKeys(lines) ==> ShoppingLine(it.name, it.unit, it.amount) in AddItem(lines, it)
  {
    var after := AddItem(lines, it);
    var k := IndexOfLine(lines, ItemKey(it));
    if k < |lines| {
      forall t | ShoppingLine(it.name, it.unit, t) in lines
        ensures ShoppingLine(it.name, it.unit, t + it.amount) in after
      {
        var j :| 0 <= j < |lines| && lines[j] == ShoppingLine(it.name, it.unit, t);
        assert j == k;
        assert after[k] == ShoppingLine(it.name, it.unit, t + it.amount);
      }
    } else {
      assert after[|lines|] == ShoppingLine(it.name, it.unit, it.amount);
    }
  }

  lemma KeysOfSnoc(items: seq<Item>)
    requires items != []
    ensures KeysOf(items) == KeysOf(items[..|items| - 1]) + {ItemKey(items[|items| - 1])}
  {
    assert items == items[..|items| - 1] + [items[|items| - 1]];
  }

  lemma GroupSumSnoc(items: seq<Item>)
    requires items != []
    ensures GroupSum(items) == AddItem(GroupSum(items[..|items| - 1]), items[|items| - 1])
  {
  }

  /** The groups have distinct keys, exactly the keys of the items. */
  lemma {:induction false} GroupSumKeys(items: seq<Item>)
    ensures DistinctKeys(GroupSum(items), LineKey)
    ensures LineKeys(GroupSum(items)) == KeysOf(items)
    decreases |items|
  {
    if items != [] {
      var init := items[..|items| - 1];
      var last := items[|items| - 1];
      GroupSumKeys(init);
      GroupSumSnoc(items);
      AddItemShape(GroupSum(init), last);
      KeysOfSnoc(items);
    }
  }

  /** One line per distinct (name, unit) pair: as many lines as keys. */
  lemma {:induction false} GroupSumCount(items: seq<Item>)
    ensures |GroupSum(items)| == |KeysOf(items)|
    decreases |items|
  {
    if items != [] {
      var init := items[..|items| - 1];
      var last := items[|items| - 1];
      GroupSumCount(init);
      GroupSumKeys(init);
      GroupSumSnoc(items);
      AddItemShape(GroupSum(init), last);
      KeysOfSnoc(items);
    }
  }

  lemma {:induction false} GroupSumAt(items: seq<Item>, key: (string, string))
    requires key in KeysOf(items)
    ensures ShoppingLine(key.0, key.1, SumKey(items, key)) in GroupSum(items)
    decreases |items|
  {
    var init := items[..|items| - 1];
    var last := items[|items| - 1];
    var before := GroupSum(init);
    GroupSumSnoc(items);
    assert SumKey(items, key) == SumKey(init, key) + (if ItemKey(last) == key then last.amount else 0);
    KeysOfSnoc(items);
    GroupSumKeys(init);
    if key != ItemKey(last) {
      assert key in KeysOf(init);
      GroupSumAt(init, key);
      AddItemShape(before, last);
    } else {
      AddItemTotal(before, last);
      if key in KeysOf(init) {
        GroupSumAt(init, key);
      } else {
        SumKeyAbsent(init, key);
      }
    }
  }

  /** Each line's total is the sum of the amounts of the items with its name and unit. */
  lemma GroupSumTotals(items: seq<Item>)
    ensures forall l :: l in GroupSum(items) ==> l.total == SumKey(items, LineKey(l))
  {
    var g := GroupSum(items);
    GroupSumKeys(items);
    forall l | l in g ensures l.total == SumKey(items, LineKey(l)) {
      assert LineKey(l) in LineKeys(g);
      GroupSumAt(items, LineKey(l));
      DistinctKeysSameKey(g, LineKey, l, ShoppingLine(l.name, l.unit, SumKey(items, LineKey(l))));
    }
  }

  lemma {:induction false} TotalOfUpdate(lines: seq<ShoppingLine>, k: nat, t: int)
    requires k < |lines|
    ensures TotalOf(lines[k := lines[k].(total := t)]) == TotalOf(lines) - lines[k].total + t
    decreases |lines|
  {
    var n := |lines| - 1;
    var upd := lines[k := lines[k].(total := t)];
    assert upd[..n] == if k < n then lines[..n][k := lines[k].(total := t)] else lines[..n];
    if k < n {
      TotalOfUpdate(lines[..n], k, t);
    }
  }

  lemma AddItemTotalOf(lines: seq<ShoppingLine>, it: Item)
    ensures TotalOf(AddItem(lines, it)) == TotalOf(lines) + it.amount
  {
    var k := IndexOfLine(lines, ItemKey(it));
    if k < |lines| {
      TotalOfUpdate(lines, k, lines[k].total + it.amount);
    } else {
      var l := ShoppingLine(it.name, it.unit, it.amount);
      assert (lines + [l])[..|lines|] == lines;
    }
  }

  /** Grouping neither loses nor invents quantity: the totals add up to the amounts. */
  lemma {:induction false} GroupSumConserves(items: seq<Item>)
    ensures TotalOf(GroupSum(items)) == AmountOf(items)
    decreases |items|
  {
    if items != [] {
      var init := items[..|items| - 1];
      GroupSumConserves(init);
      GroupSumSnoc(items);
      AddItemTotalOf(GroupSum(init), items[|items| - 1]);
    }
  }

  /** What the rendered list contains: one line per distinct (name, unit) pair among
      the quantity rows of the recipes in the user's cart, each with the sum of their amounts. */
  lemma AggregateSpec(db: Db, user: UserId)
    ensures DistinctKeys(Aggregate(db, user), LineKey)
    ensures LineKeys(Aggregate(db, user)) == KeysOf(CartItems(db, user))
    ensures |Aggregate(db, user)| == |KeysOf(CartItems(db, user))|
    ensures forall l :: l in Aggregate(db, user) ==> l.total == SumKey(CartItems(db, user), LineKey(l))
    ensures TotalOf(Aggregate(db, user)) == AmountOf(CartItems(db, user))
  {
    GroupSumKeys(CartItems(db, user));
    GroupSumCount(CartItems(db, user));
    GroupSumTotals(CartItems(db, user));
    GroupSumConserves(CartItems(db, user));
  }

  /** An empty cart gives an empty list, not an error. */
  lemma AggregateEmptyCart(db: Db, user: UserId)
    requires forall m :: m in db.shoppingCart ==> m.user != user
    ensures Aggregate(db, user) == []
  {
    assert CartRecipes(db.shoppingCart, user) == {};
    FilterNone(db.counts, InCart(CartRecipes(db.shoppingCart, user)));
  }

  lemma {:induction false} ProjectAppend(a: seq<CountOfIngredient>, b: seq<CountOfIngredient>, ingredients: map<IngredientId, Ingredient>)
    ensures Project(a + b, ingredients) == Project(a, ingredients) + Project(b, ingredients)
  {
    if a == [] {
      assert a + b == b;
    } else {
      assert (a + b)[1..] == a[1..] + b;
      ProjectAppend(a[1..], b, ingredients);
    }
  }

  /** A quantity row of a recipe that is not in the user's cart contributes nothing,
      wherever it sits in the table. */
  lemma AggregateIgnoresOtherRecipes(db: Db, user: UserId, a: seq<CountOfIngredient>, c: CountOfIngredient,
                                     b: seq<CountOfIngredient>)
    requires c.recipe !in CartRecipes(db.shoppingCart, user)
    ensures Aggregate(db.(counts := a + [c] + b), user) == Aggregate(db.(counts := a + b), user)
  {
    var p := InCart(CartRecipes(db.shoppingCart, user));
    FilterAppend(a + [c], b, p);
    FilterAppend(a, [c], p);
    FilterAppend(a, b, p);
    assert Filter([c], p) == [];
    var d1, d2 := db.(counts := a + [c] + b), db.(counts := a + b);
    assert Filter(d1.counts, p) == Filter(d2.counts, p);
    assert CartItems(d1, user) == CartItems(d2, user);
  }

  /** Recipe A (flour 200 g, sugar 50 g) and recipe B (flour 100 g, egg 2 pc) in the cart:
      three lines, flour 300 g, sugar 50 g, egg 2 pc, in that order. */
  lemma GroupSumExample()
    ensures GroupSum([Item("flour", "g", 200), Item("sugar", "g", 50), Item("flour", "g", 100), Item("egg", "pc", 2)])
            == [ShoppingLine("flour", "g", 300), ShoppingLine("sugar", "g", 50), ShoppingLine("egg", "pc", 2)]
  {
    var i1, i2, i3, i4 := Item("flour", "g", 200), Item("sugar", "g", 50), Item("flour", "g", 100), Item("egg", "pc", 2);
    var items := [i1, i2, i3, i4];
    assert items[..1] == [i1] && items[..2] == [i1, i2] && items[..3] == [i1, i2, i3];
    assert [i1][..0] == [];
    assert [i1, i2][..1] == [i1];
    assert [i1, i2, i3][..2] == [i1, i2];
    var g1 := [ShoppingLine("flour", "g", 200)];
    assert GroupSum([i1]) == g1;
    var g2 := g1 + [ShoppingLine("sugar", "g", 50)];
    assert IndexOfLine(g1, ItemKey(i2)) == 1;
    assert GroupSum([i1, i2]) == g2;
    assert IndexOfLine(g2, ItemKey(i3)) == 0;
    var g3 := [ShoppingLine("flour", "g", 300), ShoppingLine("sugar", "g", 50)];
    assert GroupSum([i1, i2, i3]) == g3;
    assert IndexOfLine(g3, ItemKey(i4)) == 2 by {
      assert IndexOfLine(g3[1..], ItemKey(i4)) == 1;
    }
  }

  // ---------------------------------------------------------------- rendering

  /** The first line of the downloaded file. */
  const HEADER: string := "список:\n"

  function DigitChar(d: nat): char
    requires d < 10
  {
    ('0' as int + d) as char
  }

  function DigitValue(c: char): nat
    requires '0' <= c <= '9'
  {
    c as int - '0' as int
  }

  predicate IsDigits(s: string)
  {
    forall i :: 0 <= i < |s| ==> '0' <= s[i] <= '9'
  }

  /** Python's `str()` of a non-negative integer: decimal digits, no leading zero. */
  function NatStr(n: nat): (s: string)
    ensures |s| >= 1 && IsDigits(s)
    ensures s[0] == '0' <==> n == 0
    decreases n
  {
    if n < 10 then [DigitChar(n)] else NatStr(n / 10) + [DigitChar(n % 10)]
  }

  /** Python's `str()` of an integer. */
  function IntStr(i: int): (s: string)
    ensures |s| >= 1
    ensures s[0] == '-' <==> i < 0
  {
    if i < 0 then "-" + NatStr(-i) else NatStr(i)
  }

  /** The value of a string of decimal digits. */
  function DecimalValue(s: string): nat
    requires IsDigits(s)
    decreases |s|
  {
    if s == [] then 0 else 10 * DecimalValue(s[..|s| - 1]) + DigitValue(s[|s| - 1])
  }

  function IntValue(s: string): int
    requires |s| >= 1
    requires if s[0] == '-' then IsDigits(s[1..]) else IsDigits(s)
  {
    if s[0] == '-' then 0 - DecimalValue(s[1..]) as int else DecimalValue(s)
  }

  /** The decimal text of a number reads back as that number. */
  lemma {:induction false} NatStrRoundTrip(n: nat)
    ensures DecimalValue(NatStr(n)) == n
    decreases n
  {
    if n >= 10 {
      NatStrRoundTrip(n / 10);
      var s := NatStr(n);
      assert s[..|s| - 1] == NatStr(n / 10);
    }
  }

  lemma IntStrRoundTrip(i: int)
    ensures IntStr(i)[0] == '-' ==> IsDigits(IntStr(i)[1..])
    ensures IntStr(i)[0] != '-' ==> IsDigits(IntStr(i))
    ensures IntValue(IntStr(i)) == i
  {
    if i < 0 {
      NatStrRoundTrip(-i);
      assert IntStr(i)[1..] == NatStr(-i);
    } else {
      NatStrRoundTrip(i);
    }
  }

  /** The concatenation of `parts`. */
  function Join(parts: seq<string>): string
    decreases |parts|
  {
    if parts == [] then "" else Join(parts[..|parts| - 1]) + parts[|parts| - 1]
  }

  /** The pieces of one line of the list: number, name, " - ", total, unit. */
  function LineParts(number: nat, l: ShoppingLine): seq<string>
  {
    [NatStr(number), " ", l.name, " - ", IntStr(l.total), " ", l.unit, "\n"]
  }

  function FormatLine(number: nat, l: ShoppingLine): string
  {
    Join(LineParts(number, l))
  }

  /** The lines of the list, numbered from `first` on. */
  function Body(lines: seq<ShoppingLine>, first: nat): string
    decreases |lines|
  {
    if lines == [] then ""
    else Body(lines[..|lines| - 1], first) + FormatLine(first + |lines| - 1, lines[|lines| - 1])
  }

  /** The text of the downloaded file. */
  function Render(lines: seq<ShoppingLine>): string
  {
    HEADER + Body(lines, 1)
  }

  /** Numbering is consecutive: the first line gets `first`, the rest follow from `first + 1`. */
  lemma {:induction false} BodyCons(l: ShoppingLine, rest: seq<ShoppingLine>, first: nat)
    ensures Body([l] + rest, first) == FormatLine(first, l) + Body(rest, first + 1)
    decreases |rest|
  {
    var whole := [l] + rest;
    if rest == [] {
      assert whole[..0] == [];
      assert Body(whole, first) == Body([], first) + FormatLine(first, l);
    } else {
      var init := rest[..|rest| - 1];
      var last := rest[|rest| - 1];
      assert whole[..|whole| - 1] == [l] + init;
      assert whole[|whole| - 1] == last;
      var f := FormatLine(first + |rest|, last);
      assert Body(whole, first) == Body([l] + init, first) + f;
      BodyCons(l, init, first);
      assert Body(rest, first + 1) == Body(init, first + 1) + f;
    }
  }

  function CountOf(s: string, c: char): nat
    decreases |s|
  {
    if s == [] then 0 else CountOf(s[..|s| - 1], c) + (if s[|s| - 1] == c then 1 else 0)
  }

  lemma {:induction false} CountOfAppend(a: string, b: string, c: char)
    ensures CountOf(a + b, c) == CountOf(a, c) + CountOf(b, c)
    decreases |b|
  {
    if b == [] {
      assert a + b == a;
    } else {
      assert (a + b)[..|a + b| - 1] == a + b[..|b| - 1];
      CountOfAppend(a, b[..|b| - 1], c);
    }
  }

  lemma {:induction false} CountOfAbsent(s: string, c: char)
    requires c !in s
    ensures CountOf(s, c) == 0
    decreases |s|
  {
    if s != [] {
      assert forall x :: x in s[..|s| - 1] ==> x in s;
      CountOfAbsent(s[..|s| - 1], c);
    }
  }

  predicate NoNewline(l: ShoppingLine)
  {
    '\n' !in l.name && '\n' !in l.unit
  }

  lemma {:induction false} JoinAbsent(parts: seq<string>, c: char)
    requires forall p :: p in parts ==> c !in p
    ensures CountOf(Join(parts), c) == 0
    decreases |parts|
  {
    if parts != [] {
      var init := parts[..|parts| - 1];
      assert forall p :: p in init ==> p in parts;
      JoinAbsent(init, c);
      CountOfAbsent(parts[|parts| - 1], c);
      CountOfAppend(Join(init), parts[|parts| - 1], c);
    }
  }

  lemma FormatLineOneNewline(number: nat, l: ShoppingLine)
    requires NoNewline(l)
    ensures CountOf(FormatLine(number, l), '\n') == 1
  {
    var parts := LineParts(number, l);
    var init := parts[..7];
    var t := IntStr(l.total);
    assert '\n' !in t by {
      if l.total < 0 {
        assert t[1..] == NatStr(-l.total);
      }
    }
    assert forall p :: p in init ==> '\n' !in p;
    JoinAbsent(init, '\n');
    assert Join(parts) == Join(init) + "\n";
    CountOfAppend(Join(init), "\n", '\n');
  }

  /** The file has the header line and exactly one line per group. */
  lemma {:induction false} RenderLineCount(lines: seq<ShoppingLine>)
    requires forall l :: l in lines ==> NoNewline(l)
    ensures CountOf(Render(lines), '\n') == |lines| + 1
  {
    BodyLineCount(lines, 1);
    CountOfAppend(HEADER, Body(lines, 1), '\n');
    assert HEADER == "список:" + "\n";
    CountOfAbsent("список:", '\n');
    CountOfAppend("список:", "\n", '\n');
  }

  lemma {:induction false} BodyLineCount(lines: seq<ShoppingLine>, first: nat)
    requires forall l :: l in lines ==> NoNewline(l)
    ensures CountOf(Body(lines, first), '\n') == |lines|
    decreases |lines|
  {
    if lines != [] {
      var init := lines[..|lines| - 1];
      assert forall l :: l in init ==> l in lines;
      BodyLineCount(init, first);
      FormatLineOneNewline(first + |lines| - 1, lines[|lines| - 1]);
      CountOfAppend(Body(init, first), FormatLine(first + |lines| - 1, lines[|lines| - 1]), '\n');
    }
  }

  /** The rendering loop: `enumerate(..., start=1)` appending one line per group. */
  method RenderShoppingList(lines: seq<ShoppingLine>) returns (text: string)
    ensures text == Render(lines)
  {
    text := HEADER;
    for i := 0 to |lines|
      invariant text == HEADER + Body(lines[..i], 1)
    {
      assert lines[..i + 1][..i] == lines[..i];
      text := text + FormatLine(i + 1, lines[i]);
    }
    assert lines[..|lines|] == lines;
  }

  /** `download_shopping_cart`: the text of the attachment. */
  method DownloadShoppingCart(store: Store, user: UserId) returns (text: string)
    requires store.Valid()
    ensures text == Render(Aggregate(store.Snapshot(), user))
  {
    var lines := Aggregate(store.Snapshot(), user);
    text := RenderShoppingList(lines);
  }

  // ---------------------------------------------------------------- cart and favourites

  /** `get_or_create(user=..., recipe=...)`: the table afterwards and whether a row was created. */
  function GetOrCreate(rows: seq<Membership>, m: Membership): (seq<Membership>, bool)
  {
    if m in rows then (rows, false) else (rows + [m], true)
  }

  function NotRow(m: Membership): Membership -> bool
  {
    (x: Membership) => x != m
  }

  /** `.filter(user=..., recipe=...).delete()`: every row equal to `m` goes. */
  function DeleteRows(rows: seq<Membership>, m: Membership): seq<Membership>
  {
    Filter(rows, NotRow(m))
  }

  /** get_or_create creates exactly when the row is absent, keeps the table valid,
      and a second call finds the row it created. */
  lemma GetOrCreateSpec(rows: seq<Membership>, m: Membership, recipes: set<RecipeId>)
    requires MembershipValid(rows, recipes) && m.recipe in recipes
    ensures GetOrCreate(rows, m).1 <==> m !in rows
    ensures MembershipValid(GetOrCreate(rows, m).0, recipes)
    ensures forall x :: x in GetOrCreate(rows, m).0 <==> x in rows || x == m
    ensures GetOrCreate(GetOrCreate(rows, m).0, m) == (GetOrCreate(rows, m).0, false)
  {
    if m !in rows {
      AppendKeepsDistinct(rows, m, MembershipKey);
    }
  }

  lemma {:induction false} DeleteRowsLength(rows: seq<Membership>, m: Membership)
    requires DistinctKeys(rows, MembershipKey)
    ensures |DeleteRows(rows, m)| == |rows| - (if m in rows then 1 else 0)
  {
    if rows != [] {
      var tail := rows[1..];
      assert DistinctKeys(tail, MembershipKey) by {
        forall i, j | 0 <= i < j < |tail| ensures tail[i] != tail[j] {
          assert tail[i] == rows[i + 1] && tail[j] == rows[j + 1];
        }
      }
      if rows[0] == m {
        assert m !in tail by {
          forall j | 0 <= j < |tail| ensures tail[j] != m {
            assert rows[j + 1] == tail[j];
          }
        }
        FilterAll(tail, NotRow(m));
      } else {
        DeleteRowsLength(tail, m);
        assert m in rows <==> m in tail;
      }
    }
  }

  /** Deleting removes that one row and nothing else, keeps the table valid, and is
      the identity when the row is absent. */
  lemma DeleteRowsSpec(rows: seq<Membership>, m: Membership, recipes: set<RecipeId>)
    requires MembershipValid(rows, recipes)
    ensures MembershipValid(DeleteRows(rows, m), recipes)
    ensures forall x :: x in DeleteRows(rows, m) <==> x in rows && x != m
    ensures |DeleteRows(rows, m)| == |rows| - (if m in rows then 1 else 0)
    ensures m !in rows ==> DeleteRows(rows, m) == rows
  {
    FilterKeepsDistinct(rows, NotRow(m), MembershipKey);
    DeleteRowsLength(rows, m);
    if m !in rows {
      FilterAll(rows, NotRow(m));
    }
  }

  /** Deleting undoes get_or_create: a row that was absent is absent again, and the
      table is what it was. */
  lemma DeleteUndoesGetOrCreate(rows: seq<Membership>, m: Membership)
    ensures DeleteRows(GetOrCreate(rows, m).0, m) == DeleteRows(rows, m)
    ensures m !in rows ==> DeleteRows(GetOrCreate(rows, m).0, m) == rows
  {
    if m !in rows {
      FilterAppend(rows, [m], NotRow(m));
      assert Filter([m], NotRow(m)) == [];
      FilterAll(rows, NotRow(m));
    }
  }

  datatype HttpMethod = Get | Delete | OtherMethod

  /** The body of a response: none, the serialized cart row (`user_id`, `recipe_id`),
      or an `errors` message. */
  datatype Payload = NoContent | CartRow(row: Membership) | Errors(errors: string)

  datatype Response = Response(status: int, payload: Payload)

  const HTTP_201_CREATED: int := 201
  const HTTP_204_NO_CONTENT: int := 204
  const HTTP_400_BAD_REQUEST: int := 400
  const HTTP_404_NOT_FOUND: int := 404

  const ALREADY_IN_CART_MESSAGE: string := "Рецепт уже в корзине покупок"

  /** `shopping_cart`: GET adds the recipe to the user's cart, DELETE removes it. */
  method ShoppingCart(store: Store, user: UserId, pk: RecipeId, verb: HttpMethod) returns (resp: Response)
    requires store.Valid()
    modifies store
    ensures store.Valid()
    ensures store.Snapshot() == old(store.Snapshot()).(shoppingCart := store.shoppingCart)
    ensures store.nextRecipeId == old(store.nextRecipeId)
    ensures pk !in old(store.recipes) ==>
              resp == Response(HTTP_404_NOT_FOUND, NoContent) && store.shoppingCart == old(store.shoppingCart)
    ensures pk in old(store.recipes) && verb == Get ==>
              && store.shoppingCart == GetOrCreate(old(store.shoppingCart), Membership(user, pk)).0
              && resp == (if Membership(user, pk) in old(store.shoppingCart)
                          then Response(HTTP_201_CREATED, Errors(ALREADY_IN_CART_MESSAGE))
                          else Response(HTTP_201_CREATED, CartRow(Membership(user, pk))))
    ensures pk in old(store.recipes) && verb == Delete ==>
              && store.shoppingCart == DeleteRows(old(store.shoppingCart), Membership(user, pk))
              && resp == Response(HTTP_204_NO_CONTENT, NoContent)
    ensures pk in old(store.recipes) && verb == OtherMethod ==>
              resp == Response(HTTP_400_BAD_REQUEST, NoContent) && store.shoppingCart == old(store.shoppingCart)
  {
    if pk !in store.recipes {
      return Response(HTTP_404_NOT_FOUND, NoContent);
    }
    var m := Membership(user, pk);
    match verb {
      case Get =>
        GetOrCreateSpec(store.shoppingCart, m, store.recipes.Keys);
        var rows, created := GetOrCreate(store.shoppingCart, m).0, GetOrCreate(store.shoppingCart, m).1;
        store.shoppingCart := rows;
        if created {
          resp := Response(HTTP_201_CREATED, CartRow(m));
        } else {
          resp := Response(HTTP_201_CREATED, Errors(ALREADY_IN_CART_MESSAGE));
        }
      case Delete =>
        DeleteRowsSpec(store.shoppingCart, m, store.recipes.Keys);
        store.shoppingCart := DeleteRows(store.shoppingCart, m);
        resp := Response(HTTP_204_NO_CONTENT, NoContent);
      case OtherMethod =>
        resp := Response(HTTP_400_BAD_REQUEST, NoContent);
    }
  }

  /** The two membership tables `delete_method_for_actions` can be given. */
  datatype MembershipTable = ShoppingCartTable | FavoriteTable

  function TableRows(db: Db, table: MembershipTable): seq<Membership>
  {
    match table
    case ShoppingCartTable => db.shoppingCart
    case FavoriteTable => db.favorites
  }

  function WithTableRows(db: Db, table: MembershipTable, rows: seq<Membership>): Db
  {
    match table
    case ShoppingCartTable => db.(shoppingCart := rows)
    case FavoriteTable => db.(favorites := rows)
  }

  /** `delete_method_for_actions`: 404 when the recipe is missing, 404 when the user has
      no such row, otherwise that row is deleted and the answer is 204. */
  method DeleteMethodForActions(store: Store, user: UserId, pk: RecipeId, table: MembershipTable)
    returns (resp: Response)
    requires store.Valid()
    modifies store
    ensures store.Valid()
    ensures store.nextRecipeId == old(store.nextRecipeId)
    ensures pk !in old(store.recipes) ==>
              resp == Response(HTTP_404_NOT_FOUND, NoContent) && store.Snapshot() == old(store.Snapshot())
    ensures pk in old(store.recipes) && Membership(user, pk) !in TableRows(old(store.Snapshot()), table) ==>
              resp == Response(HTTP_404_NOT_FOUND, NoContent) && store.Snapshot() == old(store.Snapshot())
    ensures pk in old(store.recipes) && Membership(user, pk) in TableRows(old(store.Snapshot()), table) ==>
              && resp == Response(HTTP_204_NO_CONTENT, NoContent)
              && store.Snapshot() == WithTableRows(old(store.Snapshot()), table,
                                                   DeleteRows(TableRows(old(store.Snapshot()), table), Membership(user, pk)))
  {
    if pk !in store.recipes {
      return Response(HTTP_404_NOT_FOUND, NoContent);
    }
    var m := Membership(user, pk);
    var rows := TableRows(store.Snapshot(), table);
    if m !in rows {
      return Response(HTTP_404_NOT_FOUND, NoContent);
    }
    DeleteRowsSpec(rows, m, store.recipes.Keys);
    match table {
      case ShoppingCartTable => store.shoppingCart := DeleteRows(rows, m);
      case FavoriteTable => store.favorites := DeleteRows(rows, m);
    }
    resp := Response(HTTP_204_NO_CONTENT, NoContent);
  }

  /** `delete_favorite`: the favourite row of the user for the recipe. */
  method DeleteFavorite(store: Store, user: UserId, pk: RecipeId) returns (resp: Response)
    requires store.Valid()
    modifies store
    ensures store.Valid()
    ensures store.Snapshot() == old(store.Snapshot()).(favorites := store.favorites)
    ensures store.nextRecipeId == old(store.nextRecipeId)
    ensures resp.status == HTTP_204_NO_CONTENT <==>
              pk in old(store.recipes) && Membership(user, pk) in old(store.favorites)
    ensures resp.status == HTTP_204_NO_CONTENT ==>
              store.favorites == DeleteRows(old(store.favorites), Membership(user, pk))
    ensures resp.status != HTTP_204_NO_CONTENT ==>
              resp == Response(HTTP_404_NOT_FOUND, NoContent) && store.favorites == old(store.favorites)
  {
    resp := DeleteMethodForActions(store, user, pk, FavoriteTable);
  }
}
